=== FILE: README.md ===
# Greedy day scheduler, modelled in Dafny

This project models `generateSchedule` and its helper `addBreakTimes`
(`src/utils/scheduler.ts`), the part of the day planner that turns a list of
tasks and a list of calendar events into a day plan. The plan has three parts:
- an ordered list of time blocks, each a task, an event or a break;
- the total planned time, in minutes;
- the list of tasks that did not fit.

The pipeline, as the source runs it:

1. Drop completed tasks. A missing `completed` flag counts as not completed.
2. Sort the rest by priority, high before medium before low; a missing priority
   ranks as medium. Within one priority, shorter tasks come first.
3. Turn every event that starts inside the working window, both ends included,
   into a fixed block `event-<id>`. Sort these blocks by start.
4. For each task, in that order, insert a block `task-<id>` of exactly its length
   at the first of these places that fits:
   - at the start of the window, in front of the first block;
   - at the end of the first block that is followed by a large enough gap;
   - after the last block, if the task still ends by the window's end;
   - on an empty day, at the start of the window, if the task ends by the window's end.
   The cursor at the start of the window is never moved forward.
5. Add a 15-minute break after every task block that lasts more than an hour and
   whose next block starts at least 15 minutes after it ends. Only the next block
   counts, never one further on.
6. Sort by start. List the incomplete tasks whose id was never recorded as
   scheduled, in their input order. Sum the lengths of all blocks, in
   milliseconds, and round to whole minutes.

Modelling choices:
- Instants are integers in milliseconds, as `Date.getTime()` gives them.
  Durations are integers in minutes.
- "Today" is not read from a clock. The working window `[workStart, workEnd]`
  is a parameter; the source builds it as 08:00 to 18:00 local time.
- The library sort is modelled as a stable insertion sort on a lexicographic key.
  `Array.prototype.sort` is stable since ECMAScript 2019, and a stable sort's
  result is fixed by its input and its key.

The imperative parts are `Scheduler.GenerateSchedule`, `Scheduler.FixedEventSlots`,
`Placement.PlaceTaskStep` and `Breaks.AddBreakTimes`. They are methods with the
source's loops, flags and early exits. Each is proved equal to a function on
values:
- `Schedule` for the whole pipeline;
- `DaySlots` for the event blocks;
- `PlaceTask` for one pass of the placement loop;
- `WithBreaks` for the break pass.

The properties are then proved as lemmas about those functions.

Two behaviours of the code are worth knowing, and the model follows the code in both:
- No break follows a lone task, however long it is. The break pass only adds a
  break in front of a later block, so a 90-minute task on an empty day gets no
  break (`Scenarios.LoneTask`). A break "appended after the task, because the
  day's end is far enough away" is not what the code does.
- An event that starts before the window is dropped, even if it runs into the
  window. A task can then be placed on top of it (`Scenarios.EarlyEventIgnored`).

Modules:
- `Types`: the records of `src/types/index.ts`.
- `Collections`: `FilterMap` (a filter followed by a map) and its lemmas.
- `Sorting`: the stable sort.
- `Placement`: normalisation and first-fit placement.
- `Breaks`: the break pass.
- `Scheduler`: the pipeline and the properties of the plan.
- `Scenarios`: worked days.

## Model

| member | source | states |
|---|---|---|
| Placement.Incomplete | src/utils/scheduler.ts:9 | the result holds exactly the input tasks not marked completed, and is no longer than the input |
| Placement.Rank | src/utils/scheduler.ts:13-14 | the rank is 1 to 3: 3 exactly for high priority, 1 exactly for low, so medium and a missing priority rank 2 |
| Placement.TaskKeyOrder | src/utils/scheduler.ts:12-18 | the sort key `TaskKey` orders two tasks as the source's comparator does: the first may go before the second exactly when the comparator is not positive, and the two keys tie exactly when it is zero |
| Placement.PlacementOrder | src/utils/scheduler.ts:12-18 | the task order is a permutation of the input; priority rank never increases along it, and within one rank durations never decrease; for every (rank, duration) key the tasks with that key keep their input order |
| Sorting.StableSort | src/utils/scheduler.ts:143 | the sort returns a permutation of its input of the same length |
| Sorting.StableSortSorted | src/utils/scheduler.ts:45 | the sorted sequence is ordered by its key |
| Sorting.StableSortStable | src/utils/scheduler.ts:12-18 | for every key, the elements carrying it appear in the same order as in the input |
| Sorting.SortedIsFixed | src/utils/scheduler.ts:143 | sorting a sequence already ordered by the key returns it unchanged |
| Sorting.StableSortFilterMap | src/utils/scheduler.ts:143 | whatever a filter-and-map keeps from the sorted sequence is a permutation of what it keeps from the input |
| Placement.TodaysEvents | src/utils/scheduler.ts:29-31 | an event is kept exactly when it is an input event starting inside the window, both ends included |
| Placement.TodaysEventsCount | src/utils/scheduler.ts:29-31 | each event starting inside the window is kept exactly as many times as it occurs in the input, and every other event zero times |
| Placement.EventBlocks | src/utils/scheduler.ts:33-42 | one block per event, in the same order, each the event's block `event-<id>` with its start, end, title and id copied |
| Placement.DaySlotsAreTodaysEvents | src/utils/scheduler.ts:29-45 | the event skeleton is a permutation of the blocks of today's events and is sorted by start; a block is in it exactly when it is the block of an input event starting inside the window |
| Scheduler.FixedEventSlots | src/utils/scheduler.ts:26-45 | the loop that pushes one block per event of the day, then sorts, returns the event skeleton `DaySlots` |
| Scheduler.DaySlotsAreEvents | src/utils/scheduler.ts:29-45 | every block of the skeleton is an event block starting inside the window, so the event filter keeps the whole skeleton |
| Scheduler.DaySlotsUntagged | src/utils/scheduler.ts:33-42 | no block of the skeleton carries a task id, so no id starts out recorded as scheduled |
| Placement.FirstGap | src/utils/scheduler.ts:78-99 | the result is the first position from `p` on, between two blocks, whose room holds the task; every earlier position from `p` on is too small; `None` means none is large enough |
| Placement.FirstFit | src/utils/scheduler.ts:56-136 | the four candidates in the source's order choose the least insertion position whose room holds the task; the block starts at the window's start or at the end of the block before it; `None` means no position has room |
| Placement.TaskBlock | src/utils/scheduler.ts:62-69 | a task's block is a task block carrying the task's id and no event id; it starts where asked and lasts exactly the task's duration in milliseconds |
| Placement.PlaceTaskInserts | src/utils/scheduler.ts:52-136 | `PlaceTask`, one pass of the loop: without a fit the list is unchanged; with one, the task's block sits at the fit's position, removing it gives back the old list, and the multiset of blocks grows by exactly that block |
| Placement.PlaceTaskStep | src/utils/scheduler.ts:52-136 | one pass of the loop, with its `slotFound` flag and its inner loop with `break`, inserts the task's block at the first fit, or leaves the list alone; it reports placement exactly when a fit exists |
| Placement.InsertWellFormed | src/utils/scheduler.ts:87-94 | inserting a task block into a gap it fits keeps the list sorted, non-overlapping and inside the day |
| Placement.PlaceTaskWellFormed | src/utils/scheduler.ts:56-136 | a single placement keeps the block list sorted by start, non-overlapping and inside the window, with every non-event block ending by the window's end |
| Placement.PlaceAllWellFormed | src/utils/scheduler.ts:51-137 | the whole placement loop keeps the block list sorted, non-overlapping and inside the window |
| Placement.PlaceAllKeeps | src/utils/scheduler.ts:51-137 | placement inserts only task blocks: anything that ignores task blocks sees the list unchanged, so event blocks are never moved, resized, removed or reordered |
| Placement.PlaceTaskTaskIds | src/utils/scheduler.ts:52-136 | one pass adds to the task ids on blocks at most one copy of the task's own id |
| Placement.PlaceAllTaskIds | src/utils/scheduler.ts:51-137 | the task ids on blocks after the loop, counted with multiplicity, are among those already there plus those of the tasks offered |
| Placement.PlaceAllBlocks | src/utils/scheduler.ts:51-137 | every block after the loop was there before or is the block of an offered task, exactly that task's length |
| Placement.PlaceAllLength | src/utils/scheduler.ts:51-137 | `PlaceAll`, the whole placement loop, removes no block and adds at most one block per task offered |
| Scheduler.PlaceTaskScheduledIds | src/utils/scheduler.ts:48-136 | one pass records exactly the placed task's id, and only when a fit exists |
| Breaks.BreakAfter | src/utils/scheduler.ts:180-192 | under the guard, the break starts where the task block ends, lasts exactly 15 minutes, ends by the next block's start, and carries no task or event id |
| Breaks.AddBreakTimes | src/utils/scheduler.ts:164-198 | the loop with its push and its guarded break returns `WithBreaks` of its input |
| Breaks.WithBreaks | src/utils/scheduler.ts:164-198 | the break pass keeps every block and adds at most one break between two neighbours and none after the last, so a non-empty list of `n` blocks becomes one of `n` to `2n - 1` blocks |
| Breaks.BreakRule | src/utils/scheduler.ts:167-195 | input block `i` reappears at its output position. It is directly followed by its break exactly when it has a successor and is a task block of more than an hour with at least 15 minutes to the next block. Otherwise it is followed directly by block `i + 1`, or by nothing after the last block |
| Breaks.ExpandedPrefix | src/utils/scheduler.ts:165-195 | the pass only appends: the output after `m` steps is a prefix of the output after `n >= m` steps |
| Breaks.ExpandedMembers | src/utils/scheduler.ts:167-195 | every output block is an input block or a break |
| Breaks.ExpandedKeeps | src/utils/scheduler.ts:167-195 | after `n` steps, anything that ignores breaks sees exactly the first `n` input blocks, in order |
| Breaks.WithBreaksKeeps | src/utils/scheduler.ts:164-198 | anything that ignores breaks sees the output of the pass as its input: non-break blocks keep their order and content |
| Breaks.PieceWellFormed | src/utils/scheduler.ts:168-193 | what one step emits is well formed, starts no earlier than its input block and ends before any later input block starts |
| Breaks.ExpandedWellFormed | src/utils/scheduler.ts:167-195 | everything the first `n` steps emit is well formed and ends before any later input block starts |
| Breaks.WithBreaksWellFormed | src/utils/scheduler.ts:164-198 | the break pass keeps a well-formed block list sorted, non-overlapping and inside the window |
| Scheduler.GenerateSchedule | src/utils/scheduler.ts:7-159 | the imperative pipeline returns exactly `Schedule` of its inputs. Its placement loop keeps the block list equal to the first `k` placements, and the recorded id set equal to the ids on the blocks |
| Scheduler.Schedule | src/utils/scheduler.ts:7-159 | the plan's blocks are a reordering of the placed blocks with their breaks, `totalDuration` is their summed length rounded to minutes, and the leftover list is no longer than the input |
| Scheduler.Unscheduled | src/utils/scheduler.ts:146 | a task is left over exactly when it is in the list and its id was not recorded |
| Scheduler.IncompleteIndex | src/utils/scheduler.ts:9 | the incomplete tasks are a subsequence of the input: strictly increasing input positions hold them, in order |
| Scheduler.UnscheduledIndex | src/utils/scheduler.ts:146 | the leftover list is a subsequence of the list it is filtered from, by strictly increasing positions |
| Scheduler.LeftoverInInputOrder | src/utils/scheduler.ts:146 | the tasks left over after filtering the incomplete tasks appear in the order the input lists them |
| Scheduler.UnscheduledInInputOrder | src/utils/scheduler.ts:146 | the plan's `unscheduledTasks` is a subsequence of the input task list: it keeps the input order, not the sorted placement order |
| Scheduler.FinalBlocks | src/utils/scheduler.ts:140-143 | every block of the plan that is not a break comes from the placement loop |
| Scheduler.PlacedTaskBlocks | src/utils/scheduler.ts:51-137 | every task block after the placement loop is the block of an incomplete input task, exactly its length |
| Scheduler.CompletedTasksIgnored | src/utils/scheduler.ts:9-146 | every leftover task is an incomplete input task; every task block of the plan is the block of an incomplete input task, exactly its length |
| Scheduler.FinalTaskIds | src/utils/scheduler.ts:140-143 | breaks and the final sort leave the multiset of task ids on blocks unchanged |
| Scheduler.PlacedTaskIds | src/utils/scheduler.ts:48-137 | the task ids on blocks after the loop, with multiplicity, are among the ids of the incomplete tasks |
| Scheduler.PlacedOrReported | src/utils/scheduler.ts:48-146 | an incomplete task is left over if and only if no block of the plan carries its id; the ids on the plan's blocks, with multiplicity, are among the incomplete tasks' ids |
| Scheduler.AtMostOneBlockPerTask | src/utils/scheduler.ts:51-137 | if the incomplete tasks have distinct ids, no id is carried by more than one block of the plan |
| Scheduler.PlacedEvents | src/utils/scheduler.ts:51-140 | after placement and breaks, the event blocks are exactly the skeleton, in the same order |
| Scheduler.EventBlocksKept | src/utils/scheduler.ts:29-143 | the event blocks of the plan are a permutation of the blocks of the events that start inside the window, whatever the tasks |
| Scheduler.PlacedWellFormed | src/utils/scheduler.ts:51-137 | if the day's events do not overlap and no incomplete task has a negative duration, the block list after the loop is sorted, non-overlapping and inside the window |
| Scheduler.WellFormedPlan | src/utils/scheduler.ts:139-143 | under the same conditions, the plan is sorted, non-overlapping and inside the window; the final sort changes nothing, so the break rule describes the plan as returned, and the event blocks appear unmoved and in order |
| Scheduler.RoundToMinutes | src/utils/scheduler.ts:156 | the result is the nearest whole minute: the input lies within half a minute below or strictly less than half a minute above it, with a half rounded up as `Math.round` does |
| Scheduler.TotalMsConcat | src/utils/scheduler.ts:149-152 | `TotalMs`, the `reduce` summing end - start in milliseconds, over two joined lists is the sum of their totals |
| Scheduler.TotalMsNonNegative | src/utils/scheduler.ts:149-152 | over blocks none of which ends before it starts, `TotalMs` is non-negative, and zero exactly when every block is empty |
| Scheduler.TotalMsSort | src/utils/scheduler.ts:143-152 | reordering by the final sort does not change the summed length |
| Scheduler.ExpandedTotal | src/utils/scheduler.ts:167-195 | after `n` steps, the output's summed length is that of the first `n` input blocks plus 15 minutes per break added |
| Scheduler.WithBreaksTotal | src/utils/scheduler.ts:164-198 | the break pass never drops a block and adds exactly 15 minutes to the summed length per break it inserts |
| Scheduler.PlanTotal | src/utils/scheduler.ts:139-156 | the plan is sorted by start. Its blocks, whose summed length `totalDuration` rounds, add up to the placed blocks plus 15 minutes per break. The plan has one block per placed block plus one per break |
| Scenarios.LoneTask | src/utils/scheduler.ts:122-135 | on an empty day, a lone incomplete task that fits is placed at the start of the window. It is the whole plan, the total is its duration, nothing is left over, and no break follows it |
| Scenarios.TaskBeforeMeeting | src/utils/scheduler.ts:56-73 | a 45-minute task goes 08:00-08:45 in front of a 09:00-09:30 meeting; the meeting block is copied from the event; the total is 75 minutes |
| Scenarios.BreakAfterLongTask | src/utils/scheduler.ts:174-193 | a 90-minute task before a 10:00 meeting runs 08:00-09:30 and is followed by the break `break-task-a`, 09:30-09:45; the total is 165 minutes |
| Scenarios.TaskTooLong | src/utils/scheduler.ts:102-120 | a ten-hour task does not fit a ten-hour window that holds a half-hour meeting: it is left over and the plan is the meeting alone, 30 minutes |
| Scenarios.PriorityOrder | src/utils/scheduler.ts:12-18 | a high-priority task listed after a low-priority one of the same length is sorted in front of it |
| Scenarios.HighPriorityFirst | src/utils/scheduler.ts:12-18 | that high-priority task is placed first, at 08:00, and the low-priority one follows at 08:30; the total is 60 minutes |
| Scenarios.EarlyEventIgnored | src/utils/scheduler.ts:29-31 | an event from 07:30 to 09:00 is left out of the plan, and a task is placed at 08:00, on top of it |

## Left out

- The clock and local-time date construction (`src/utils/scheduler.ts:21-23`) are not modelled; the window is a parameter.
- Floating point is not modelled. Durations are whole minutes and instants whole milliseconds, so `Math.round` becomes exact integer half-up division. A fractional, `NaN` or infinite duration is outside the model.
- The array `timeSlots` is not mutated in place; the methods reassign sequences. Nothing else refers to the array, so no aliasing is lost.
- `Placement.PlaceTaskStep`: the source runs the four placement cases inline in the loop over tasks; here they form a method the loop calls, with the same order and guards.
- `Scheduler.PlacedWellFormed` and `Scheduler.WellFormedPlan` require that today's events do not overlap and that no incomplete task has a negative duration. The source checks neither; completed tasks are never read, so their durations are unconstrained.
  - The requirement also rules out an event that ends before it starts, since every block must have start <= end.
  - Overlapping events break non-overlap of the plan, not its order: a task placed after the last block can sit inside an earlier, longer event.
  - The plan stays sorted by start whatever the events are, as `Scheduler.PlanTotal` states.
- `Scheduler.AtMostOneBlockPerTask` requires distinct ids among the incomplete tasks. With duplicate ids the source records a single id for several blocks. `Scheduler.PlacedOrReported` still bounds the number of blocks by the number of tasks with that id.
- Nothing states that every task that could fit is placed. Greedy first fit with a cursor that never advances does not promise it, and the model shows which position it takes instead (`Placement.FirstFit`).
- `src/utils/calendar.ts`, the React components and pages, and `src/components/PlanButton.tsx` are not part of this model. They are sign-in, network fetches, rendering and UI state.

=== FILE: breaks.dfy ===
/** `addBreakTimes` (src/utils/scheduler.ts:164-198): one forward pass that copies the
    block list and puts a 15-minute break after every task block of more than an hour
    that has a successor at least 15 minutes away. */
module Breaks {
  import opened Types
  import opened Collections
  import opened Placement

  const BreakMs := 15 * MsPerMinute
  const LongSessionMs := 60 * MsPerMinute

  /** The guard of the source: a task block, longer than an hour, with room for a break
      before the next block. */
  predicate NeedsBreak(cur: TimeSlot, next: TimeSlot): (r: bool)
  {
    cur.kind == TaskKind && cur.end - cur.start > LongSessionMs && next.start - cur.end >= BreakMs
  }

  function Min(a: int, b: int): int
  {
    if a <= b then a else b
  }

  /** The break block. Under the guard the `min` always picks the 15-minute end, so the
      break is exactly 15 minutes and still ends by the next block's start. */
  function BreakAfter(cur: TimeSlot, next: TimeSlot): (b: TimeSlot)
    requires NeedsBreak(cur, next)
    ensures b.kind == BreakKind && b.taskId.None? && b.eventId.None?
    ensures b.start == cur.end && b.end - b.start == BreakMs && b.end <= next.start
  {
    TimeSlot("break-" + cur.id, cur.end, Min(cur.end + BreakMs, next.start), BreakKind, "Break", None, None)
  }

  /** What pass `i` of the loop appends: block `i`, then its break if one is needed. */
  function Piece(s: seq<TimeSlot>, i: nat): seq<TimeSlot>
    requires i < |s|
  {
    if i + 1 < |s| && NeedsBreak(s[i], s[i + 1]) then [s[i], BreakAfter(s[i], s[i + 1])] else [s[i]]
  }

  /** The output after the first `n` passes. */
  function Expanded(s: seq<TimeSlot>, n: nat): seq<TimeSlot>
    requires n <= |s|
  {
    if n == 0 then [] else Expanded(s, n - 1) + Piece(s, n - 1)
  }

  /** The output of the break pass: every block kept, at most one break between two
      neighbours and none after the last block. */
  function WithBreaks(s: seq<TimeSlot>): (r: seq<TimeSlot>)
    ensures |s| <= |r|
    ensures s != [] ==> |r| <= 2 * |s| - 1
  {
    ExpandedLength(s, |s|); Expanded(s, |s|)
  }

  /** Each pass appends its block and at most one break. */
  lemma {:induction false} ExpandedLength(s: seq<TimeSlot>, n: nat)
    requires n <= |s|
    ensures n <= |Expanded(s, n)| <= 2 * n
    ensures 0 < n == |s| ==> |Expanded(s, n)| <= 2 * n - 1
  {
    if n > 0 {
      ExpandedLength(s, n - 1);
    }
  }

  /** The loop of the source: push each block, then its break when the guard holds. */
  method AddBreakTimes(timeSlots: seq<TimeSlot>) returns (enhanced: seq<TimeSlot>)
    ensures enhanced == WithBreaks(timeSlots)
  {
    enhanced := [];
    for i := 0 to |timeSlots|
      invariant enhanced == Expanded(timeSlots, i)
    {
      enhanced := enhanced + [timeSlots[i]];
      var currentSlot := timeSlots[i];
      if currentSlot.kind == TaskKind && i + 1 < |timeSlots| {
        var nextSlot := timeSlots[i + 1];
        var sessionDuration := currentSlot.end - currentSlot.start;
        var breakNeeded := sessionDuration > LongSessionMs;
        var gapTime := nextSlot.start - currentSlot.end;
        var hasTimeForBreak := gapTime >= BreakMs;
        if breakNeeded && hasTimeForBreak {
          var breakEnd := Min(currentSlot.end + BreakMs, nextSlot.start);
          enhanced := enhanced + [TimeSlot("break-" + currentSlot.id, currentSlot.end, breakEnd,
                                           BreakKind, "Break", None, None)];
        }
      }
    }
  }

  // ---------------------------------------------------------------------------
  // Layout of the output

  /** Where block `i` of the input lands in the output. */
  function Pos(s: seq<TimeSlot>, i: nat): nat
    requires i <= |s|
  {
    |Expanded(s, i)|
  }

  lemma {:induction false} ExpandedPrefix(s: seq<TimeSlot>, m: nat, n: nat)
    requires m <= n <= |s|
    ensures Pos(s, m) <= Pos(s, n) && Expanded(s, n)[..Pos(s, m)] == Expanded(s, m)
  {
    if m < n {
      ExpandedPrefix(s, m, n - 1);
      var e := Expanded(s, n - 1);
      var p := Piece(s, n - 1);
      assert Expanded(s, n) == e + p;
      PrefixOfAppend(e, p, Pos(s, m));
    }
  }

  /** The break rule, position by position: input block `i` reappears at `Pos(s, i)`; it is
      directly followed by its break exactly when it has a successor and the guard holds,
      and otherwise directly by input block `i + 1` (or by nothing, after the last block). */
  lemma BreakRule(s: seq<TimeSlot>, i: nat)
    requires i < |s|
    ensures Pos(s, i) < Pos(s, i + 1) <= |WithBreaks(s)| && WithBreaks(s)[Pos(s, i)] == s[i]
    ensures i + 1 < |s| && NeedsBreak(s[i], s[i + 1]) ==>
              Pos(s, i + 1) == Pos(s, i) + 2 &&
              WithBreaks(s)[Pos(s, i) + 1] == BreakAfter(s[i], s[i + 1])
    ensures !(i + 1 < |s| && NeedsBreak(s[i], s[i + 1])) ==> Pos(s, i + 1) == Pos(s, i) + 1
  {
    ExpandedPrefix(s, i + 1, |s|);
    var r := WithBreaks(s);
    assert r == Expanded(s, |s|);
    assert Expanded(s, i + 1) == Expanded(s, i) + Piece(s, i);
    assert r[..Pos(s, i + 1)] == Expanded(s, i + 1);
    assert r[Pos(s, i)] == Expanded(s, i + 1)[Pos(s, i)];
  }

  /** The pass copies every input block in order and adds nothing but breaks: whatever
      ignores break blocks sees the list unchanged. */
  lemma {:induction false} ExpandedKeeps<U>(f: TimeSlot -> Option<U>, s: seq<TimeSlot>, n: nat)
    requires n <= |s|
    requires forall c, d :: NeedsBreak(c, d) ==> f(BreakAfter(c, d)).None?
    ensures FilterMap(f, Expanded(s, n)) == FilterMap(f, s[..n])
  {
    if n > 0 {
      var e, p := Expanded(s, n - 1), Piece(s, n - 1);
      assert Expanded(s, n) == e + p;
      ExpandedKeeps(f, s, n - 1);
      FilterMapConcat(f, e, p);
      FilterMapPrefix(f, s, n - 1);
      PieceKeeps(f, s, n - 1);
    }
  }

  /** What one pass emits keeps, for `f`, just its input block. */
  lemma PieceKeeps<U>(f: TimeSlot -> Option<U>, s: seq<TimeSlot>, i: nat)
    requires i < |s|
    requires forall c, d :: NeedsBreak(c, d) ==> f(BreakAfter(c, d)).None?
    ensures FilterMap(f, Piece(s, i)) == FilterMap(f, [s[i]])
  {
    if i + 1 < |s| && NeedsBreak(s[i], s[i + 1]) {
      var b := BreakAfter(s[i], s[i + 1]);
      FilterMapConcat(f, [s[i]], [b]);
      assert [s[i]] + [b] == Piece(s, i);
      assert FilterMap(f, [b]) == [];
    }
  }

  lemma WithBreaksKeeps<U>(f: TimeSlot -> Option<U>, s: seq<TimeSlot>)
    requires forall c, d :: NeedsBreak(c, d) ==> f(BreakAfter(c, d)).None?
    ensures FilterMap(f, WithBreaks(s)) == FilterMap(f, s)
  {
    ExpandedKeeps(f, s, |s|);
    assert s[..|s|] == s;
  }

  /** Every output block is an input block or a break. */
  lemma {:induction false} ExpandedMembers(s: seq<TimeSlot>, n: nat)
    requires n <= |s|
    ensures forall b :: b in Expanded(s, n) ==> b in s || b.kind == BreakKind
  {
    if n > 0 {
      ExpandedMembers(s, n - 1);
      assert forall b :: b in Expanded(s, n) ==> b in Expanded(s, n - 1) || b in Piece(s, n - 1);
    }
  }

  // ---------------------------------------------------------------------------
  // Breaks keep the plan well formed

  lemma ConcatWellFormed(a: seq<TimeSlot>, b: seq<TimeSlot>, workStart: int, workEnd: int)
    requires WellFormed(a, workStart, workEnd) && WellFormed(b, workStart, workEnd)
    requires forall x, y :: x in a && y in b ==> x.end <= y.start
    ensures WellFormed(a + b, workStart, workEnd)
  {
    var r := a + b;
    forall i, j | 0 <= i < j < |r|
      ensures r[i].end <= r[j].start
    {
      if i < |a| && j >= |a| {
        assert r[i] in a && r[j] == b[j - |a|] && r[j] in b;
      } else if i >= |a| {
        assert r[i] == b[i - |a|] && r[j] == b[j - |a|];
      }
    }
    forall i | 0 <= i < |r|
      ensures r[i].start <= r[i].end
      ensures workStart <= r[i].start <= workEnd && (r[i].kind != EventKind ==> r[i].end <= workEnd)
    {
      if i >= |a| {
        assert r[i] == b[i - |a|];
      }
    }
  }

  /** What one pass emits is well formed, starts no earlier than its input block and ends
      before any later input block starts. */
  lemma PieceWellFormed(s: seq<TimeSlot>, i: nat, workStart: int, workEnd: int)
    requires WellFormed(s, workStart, workEnd)
    requires i < |s|
    ensures WellFormed(Piece(s, i), workStart, workEnd)
    ensures forall x :: x in Piece(s, i) ==> s[i].start <= x.start
    ensures forall x, k :: x in Piece(s, i) && i < k < |s| ==> x.end <= s[k].start
  {
    var piece := Piece(s, i);
    assert s[i].start <= s[i].end;
    if |piece| == 2 {
      assert s[i + 1].start <= s[i + 1].end;
      assert forall k :: i + 1 < k < |s| ==> s[i + 1].end <= s[k].start;
      assert s[i + 1].start <= workEnd;
    }
  }

  /** Everything the first `n` passes emit ends before any later input block starts. */
  lemma {:induction false} ExpandedWellFormed(s: seq<TimeSlot>, n: nat, workStart: int, workEnd: int)
    requires WellFormed(s, workStart, workEnd)
    requires n <= |s|
    ensures WellFormed(Expanded(s, n), workStart, workEnd)
    ensures forall x, k :: x in Expanded(s, n) && n <= k < |s| ==> x.end <= s[k].start
  {
    if n > 0 {
      var i := n - 1;
      ExpandedWellFormed(s, i, workStart, workEnd);
      PieceWellFormed(s, i, workStart, workEnd);
      var e, piece := Expanded(s, i), Piece(s, i);
      assert Expanded(s, n) == e + piece;
      assert WellFormed(e + piece, workStart, workEnd) by {
        assert forall x, y :: x in e && y in piece ==> x.end <= s[i].start <= y.start;
        ConcatWellFormed(e, piece, workStart, workEnd);
      }
      forall x: TimeSlot, k | x in e + piece && n <= k < |s|
        ensures x.end <= s[k].start
      {
        assert x in e || x in piece;
      }
    }
  }

  /** Breaks keep the plan sorted, disjoint and inside the day. */
  lemma WithBreaksWellFormed(s: seq<TimeSlot>, workStart: int, workEnd: int)
    requires WellFormed(s, workStart, workEnd)
    ensures WellFormed(WithBreaks(s), workStart, workEnd)
  {
    ExpandedWellFormed(s, |s|, workStart, workEnd);
  }
}

=== FILE: collections.dfy ===
/** Sequence helpers shared by the scheduler model. */
module Collections {
  import opened Types

  /** The values `f` yields for the elements it maps to `Some`, in order
      (a `filter` followed by a `map`). */
  function FilterMap<T, U>(f: T -> Option<U>, s: seq<T>): seq<U>
  {
    if s == [] then []
    else (match f(s[0]) case Some(u) => [u] case None => []) + FilterMap(f, s[1..])
  }

  lemma {:induction false} FilterMapConcat<T, U>(f: T -> Option<U>, a: seq<T>, b: seq<T>)
    ensures FilterMap(f, a + b) == FilterMap(f, a) + FilterMap(f, b)
  {
    if a == [] {
      assert a + b == b;
    } else {
      assert (a + b)[1..] == a[1..] + b;
      FilterMapConcat(f, a[1..], b);
    }
  }

  lemma FilterMapPrefix<T, U>(f: T -> Option<U>, s: seq<T>, i: nat)
    requires i < |s|
    ensures FilterMap(f, s[..i + 1]) == FilterMap(f, s[..i]) + FilterMap(f, [s[i]])
  {
    FilterMapConcat(f, s[..i], [s[i]]);
    assert s[..i] + [s[i]] == s[..i + 1];
  }

  /** Splitting `s` at `p` and putting `x` in between. */
  lemma FilterMapInsert<T, U>(f: T -> Option<U>, s: seq<T>, p: nat, x: T)
    requires p <= |s|
    ensures FilterMap(f, s[..p] + [x] + s[p..])
            == FilterMap(f, s[..p]) + FilterMap(f, [x]) + FilterMap(f, s[p..])
    ensures FilterMap(f, s[..p]) + FilterMap(f, s[p..]) == FilterMap(f, s)
  {
    FilterMapConcat(f, s[..p] + [x], s[p..]);
    FilterMapConcat(f, s[..p], [x]);
    FilterMapConcat(f, s[..p], s[p..]);
    assert s[..p] + s[p..] == s;
  }

  /** Nothing is kept from a sequence that `f` maps entirely to `None`. */
  lemma {:induction false} FilterMapNone<T, U>(f: T -> Option<U>, s: seq<T>)
    requires forall i :: 0 <= i < |s| ==> f(s[i]).None?
    ensures FilterMap(f, s) == []
  {
    if s != [] {
      FilterMapNone(f, s[1..]);
    }
  }

  /** `u` is kept exactly when some element maps to it. */
  lemma {:induction false} FilterMapMember<T, U>(f: T -> Option<U>, s: seq<T>, u: U)
    ensures u in FilterMap(f, s) <==> exists x :: x in s && f(x) == Some(u)
  {
    if s != [] {
      FilterMapMember(f, s[1..], u);
      assert forall x :: x in s <==> x == s[0] || x in s[1..];
    }
  }

  /** A sequence that `f` keeps whole and unchanged. */
  lemma {:induction false} FilterMapAll<T>(f: T -> Option<T>, s: seq<T>)
    requires forall i :: 0 <= i < |s| ==> f(s[i]) == Some(s[i])
    ensures FilterMap(f, s) == s
  {
    if s != [] {
      FilterMapAll(f, s[1..]);
    }
  }

  lemma SubMultisetGrow<U>(a: multiset<U>, b: multiset<U>, c: multiset<U>, d: multiset<U>)
    requires a <= b + d && b <= c
    ensures a <= c + d
  {
  }

  /** A prefix no longer than `a` of `a + b` is a prefix of `a`. */
  lemma PrefixOfAppend<T>(a: seq<T>, b: seq<T>, k: nat)
    requires k <= |a|
    ensures k <= |a + b| && (a + b)[..k] == a[..k]
  {
  }

  /** `r` is a subsequence of `s`: `idx` names, in strictly increasing order, the position
      in `s` each element of `r` was taken from. */
  ghost predicate IsIndexMap<T>(idx: seq<nat>, r: seq<T>, s: seq<T>)
  {
    |idx| == |r| &&
    (forall k :: 0 <= k < |idx| ==> idx[k] < |s| && s[idx[k]] == r[k]) &&
    (forall k, l :: 0 <= k < l < |idx| ==> idx[k] < idx[l])
  }

  /** Every position moved one place on. */
  function Shift(idx: seq<nat>): (r: seq<nat>)
    ensures |r| == |idx| && forall k :: 0 <= k < |idx| ==> r[k] == idx[k] + 1
  {
    if idx == [] then [] else [idx[0] + 1] + Shift(idx[1..])
  }

  lemma IndexMapShift<T>(x: T, s: seq<T>, r: seq<T>, idx: seq<nat>)
    requires IsIndexMap(idx, r, s)
    ensures IsIndexMap(Shift(idx), r, [x] + s)
  {
    var shifted := Shift(idx);
    forall k | 0 <= k < |shifted|
      ensures ([x] + s)[shifted[k]] == r[k]
    {
      assert ([x] + s)[idx[k] + 1] == s[idx[k]];
    }
  }

  lemma IndexMapFront<T>(x: T, s: seq<T>, r: seq<T>, idx: seq<nat>)
    requires IsIndexMap(idx, r, [x] + s)
    requires forall k :: 0 <= k < |idx| ==> 1 <= idx[k]
    ensures IsIndexMap([0] + idx, [x] + r, [x] + s)
  {
    var idx2 := [0] + idx;
    forall k | 1 <= k < |idx2|
      ensures idx2[k] == idx[k - 1] && ([x] + r)[k] == r[k - 1]
    {
    }
  }

  /** Putting `x` in front of `s`, and keeping it in front of `r` or not, keeps `r` a
      subsequence of `s`. */
  lemma IndexMapCons<T>(x: T, s: seq<T>, r: seq<T>, idx: seq<nat>, keep: bool)
    returns (idx2: seq<nat>)
    requires IsIndexMap(idx, r, s)
    ensures IsIndexMap(idx2, (if keep then [x] else []) + r, [x] + s)
  {
    IndexMapShift(x, s, r, idx);
    if keep {
      IndexMapFront(x, s, r, Shift(idx));
      idx2 := [0] + Shift(idx);
    } else {
      idx2 := Shift(idx);
      assert [] + r == r;
    }
  }

  /** A subsequence of a subsequence of `s` is a subsequence of `s`. */
  lemma IndexMapCompose<T>(inner: seq<nat>, r: seq<T>, m: seq<T>, outer: seq<nat>, s: seq<T>)
    returns (idx: seq<nat>)
    requires IsIndexMap(inner, r, m) && IsIndexMap(outer, m, s)
    ensures IsIndexMap(idx, r, s)
  {
    idx := seq(|inner|, k requires 0 <= k < |inner| => outer[inner[k]]);
  }
}

=== FILE: placement.dfy ===
/** Input normalisation and greedy first-fit placement of `generateSchedule`
    (src/utils/scheduler.ts:9-137), stated as functions on values. The method
    `Scheduler.GenerateSchedule` runs the same steps imperatively and is proved
    equal to them. */
module Placement {
  import opened Types
  import opened Collections
  import opened Sorting

  const MsPerMinute := 60 * 1000

  /** A task's length in milliseconds. The factor is written as a literal, as in the
      source, so that the product stays linear for the solver. */
  function TaskMs(t: Task): int
  {
    t.duration * 60 * 1000
  }

  // ---------------------------------------------------------------------------
  // Input normalisation

  /** A missing `completed` flag counts as not completed. */
  predicate IsCompleted(t: Task)
  {
    t.completed == Some(true)
  }

  /** The tasks not yet done, in input order. */
  function Incomplete(tasks: seq<Task>): (r: seq<Task>)
    ensures |r| <= |tasks|
    ensures forall t :: t in r <==> t in tasks && !IsCompleted(t)
  {
    if tasks == [] then []
    else (if IsCompleted(tasks[0]) then [] else [tasks[0]]) + Incomplete(tasks[1..])
  }

  /** high = 3, medium = 2, low = 1; a missing priority ranks as medium. */
  function Rank(p: Option<Priority>): (r: int)
    ensures 1 <= r <= 3
    ensures r == 3 <==> p == Some(High)
    ensures r == 1 <==> p == Some(Low)
  {
    match p
    case Some(High) => 3
    case Some(Medium) => 2
    case Some(Low) => 1
    case None => 2
  }

  /** Higher rank first, then shorter duration first. */
  function TaskKey(t: Task): Key
  {
    Key(-Rank(t.priority), t.duration)
  }

  /** The comparator of the source: negative when `a` goes first, positive when `b` does. */
  function Compare(a: Task, b: Task): int
  {
    var priorityDiff := Rank(b.priority) - Rank(a.priority);
    if priorityDiff != 0 then priorityDiff else a.duration - b.duration
  }

  /** The sort key orders two tasks exactly as the comparator does: `a` may go before `b`
      when the comparator does not put `b` strictly first. */
  lemma TaskKeyOrder(a: Task, b: Task)
    ensures KeyLe(TaskKey(a), TaskKey(b)) <==> Compare(a, b) <= 0
    ensures KeyLe(TaskKey(a), TaskKey(b)) && KeyLe(TaskKey(b), TaskKey(a)) <==> Compare(a, b) == 0
  {
  }

  function SortTasks(ts: seq<Task>): seq<Task>
  {
    StableSort(ts, TaskKey)
  }

  /** The order in which tasks are offered to the placement loop. */
  lemma PlacementOrder(ts: seq<Task>)
    ensures multiset(SortTasks(ts)) == multiset(ts)
    ensures forall i, j :: 0 <= i < j < |SortTasks(ts)| ==>
              Rank(SortTasks(ts)[i].priority) > Rank(SortTasks(ts)[j].priority) ||
              (Rank(SortTasks(ts)[i].priority) == Rank(SortTasks(ts)[j].priority) &&
               SortTasks(ts)[i].duration <= SortTasks(ts)[j].duration)
    ensures forall k :: KeyFilter(SortTasks(ts), TaskKey, k) == KeyFilter(ts, TaskKey, k)
  {
    StableSortSorted(ts, TaskKey);
    forall k ensures KeyFilter(SortTasks(ts), TaskKey, k) == KeyFilter(ts, TaskKey, k) {
      StableSortStable(ts, TaskKey, k);
    }
  }

  predicate StartsInDay(e: CalendarEvent, workStart: int, workEnd: int)
  {
    workStart <= e.start <= workEnd
  }

  /** The events starting inside [workStart, workEnd], both ends included, in input order. */
  function TodaysEvents(events: seq<CalendarEvent>, workStart: int, workEnd: int): (r: seq<CalendarEvent>)
    ensures |r| <= |events|
    ensures forall e :: e in r <==> e in events && StartsInDay(e, workStart, workEnd)
  {
    if events == [] then []
    else
      (if StartsInDay(events[0], workStart, workEnd) then [events[0]] else [])
      + TodaysEvents(events[1..], workStart, workEnd)
  }

  /** Each event starting inside the window is kept exactly as often as it occurs in the
      input, and no other event is kept. */
  lemma {:induction false} TodaysEventsCount(events: seq<CalendarEvent>, workStart: int, workEnd: int)
    ensures forall e :: multiset(TodaysEvents(events, workStart, workEnd))[e]
                        == if StartsInDay(e, workStart, workEnd) then multiset(events)[e] else 0
  {
    if events != [] {
      TodaysEventsCount(events[1..], workStart, workEnd);
      assert events == [events[0]] + events[1..];
    }
  }

  /** The fixed block an event becomes: its times, title and id copied verbatim. */
  function EventBlock(e: CalendarEvent): TimeSlot
  {
    TimeSlot("event-" + e.id, e.start, e.end, EventKind, e.title, None, Some(e.id))
  }

  /** One block per event, in the same order. */
  function EventBlocks(es: seq<CalendarEvent>): (r: seq<TimeSlot>)
    ensures |r| == |es|
    ensures forall i :: 0 <= i < |es| ==> r[i] == EventBlock(es[i])
  {
    if es == [] then [] else EventBlocks(es[..|es| - 1]) + [EventBlock(es[|es| - 1])]
  }

  /** Blocks are compared by start instant only. */
  function StartKey(b: TimeSlot): Key
  {
    Key(b.start, 0)
  }

  /** The skeleton the placement starts from: today's event blocks sorted by start. */
  function DaySlots(events: seq<CalendarEvent>, workStart: int, workEnd: int): seq<TimeSlot>
  {
    StableSort(EventBlocks(TodaysEvents(events, workStart, workEnd)), StartKey)
  }

  /** A block is among the event blocks exactly when it is the block of one of the events. */
  lemma EventBlocksMembers(es: seq<CalendarEvent>, b: TimeSlot)
    ensures b in EventBlocks(es) <==> exists e :: e in es && b == EventBlock(e)
  {
    if b in EventBlocks(es) {
      var i :| 0 <= i < |es| && EventBlocks(es)[i] == b;
      assert es[i] in es;
    }
    if exists e :: e in es && b == EventBlock(e) {
      var e :| e in es && b == EventBlock(e);
      var i :| 0 <= i < |es| && es[i] == e;
      assert EventBlocks(es)[i] == b;
    }
  }

  /** The skeleton holds exactly one block per event starting in the window, sorted by start. */
  lemma DaySlotsAreTodaysEvents(events: seq<CalendarEvent>, workStart: int, workEnd: int)
    ensures multiset(DaySlots(events, workStart, workEnd))
            == multiset(EventBlocks(TodaysEvents(events, workStart, workEnd)))
    ensures SortedBy(DaySlots(events, workStart, workEnd), StartKey)
    ensures forall b :: b in DaySlots(events, workStart, workEnd) <==>
              exists e :: e in events && StartsInDay(e, workStart, workEnd) && b == EventBlock(e)
  {
    var es := TodaysEvents(events, workStart, workEnd);
    var day := DaySlots(events, workStart, workEnd);
    StableSortSorted(EventBlocks(es), StartKey);
    forall b ensures b in day <==> exists e :: e in events && StartsInDay(e, workStart, workEnd) && b == EventBlock(e)
    {
      assert b in day <==> b in multiset(day);
      assert b in EventBlocks(es) <==> b in multiset(EventBlocks(es));
      EventBlocksMembers(es, b);
    }
  }

  // ---------------------------------------------------------------------------
  // First-fit placement

  /** Where a task would start if inserted at position `p` of the block list:
      at the cursor `workStart` in front of everything, otherwise right where block
      `p - 1` ends. The cursor is never advanced. */
  function CandidateStart(slots: seq<TimeSlot>, p: nat, workStart: int): int
    requires p <= |slots|
  {
    if p == 0 then workStart else slots[p - 1].end
  }

  /** The time available from the candidate start at position `p` up to the next block,
      or up to `workEnd` when there is no next block. */
  function Room(slots: seq<TimeSlot>, p: nat, workStart: int, workEnd: int): int
    requires p <= |slots|
  {
    (if p < |slots| then slots[p].start else workEnd) - CandidateStart(slots, p, workStart)
  }

  /** The first position `q` in [p, |slots| - 1] whose room between two blocks holds `d`. */
  function FirstGap(slots: seq<TimeSlot>, d: int, workStart: int, workEnd: int, p: nat): (r: Option<nat>)
    requires 1 <= p
    ensures r.Some? ==> p <= r.value < |slots| && Room(slots, r.value, workStart, workEnd) >= d
    ensures forall q :: p <= q < |slots| && (r.None? || q < r.value) ==>
              Room(slots, q, workStart, workEnd) < d
    decreases |slots| - p
  {
    if p >= |slots| then None
    else if Room(slots, p, workStart, workEnd) >= d then Some(p)
    else FirstGap(slots, d, workStart, workEnd, p + 1)
  }

  /** A chosen insertion position and the start instant of the new block. */
  datatype Fit = Fit(index: nat, start: int)

  /** The four candidates of the source, tried in order: in front of the first block,
      between the first adjacent pair with enough room, after the last block (ending by
      `workEnd`), and on an empty day at `workStart` (ending by `workEnd`). The result is
      the least position whose room holds `d`. */
  function FirstFit(slots: seq<TimeSlot>, d: int, workStart: int, workEnd: int): (r: Option<Fit>)
    ensures r.Some? ==>
              r.value.index <= |slots| &&
              r.value.start == CandidateStart(slots, r.value.index, workStart) &&
              Room(slots, r.value.index, workStart, workEnd) >= d
    ensures forall q :: 0 <= q <= |slots| && (r.None? || q < r.value.index) ==>
              Room(slots, q, workStart, workEnd) < d
  {
    if |slots| > 0 && slots[0].start - workStart >= d then Some(Fit(0, workStart))
    else
      match FirstGap(slots, d, workStart, workEnd, 1)
      case Some(q) => Some(Fit(q, slots[q - 1].end))
      case None =>
        if |slots| > 0 then
          var last := slots[|slots| - 1];
          if last.end + d <= workEnd then Some(Fit(|slots|, last.end)) else None
        else if workStart + d <= workEnd then Some(Fit(0, workStart))
        else None
  }

  /** The block a task gets when placed at `start`: exactly its length. */
  function TaskBlock(t: Task, start: int): (b: TimeSlot)
  {
    TimeSlot("task-" + t.id, start, start + TaskMs(t), TaskKind, t.title, Some(t.id), None)
  }

  /** One pass of the placement loop: insert the task's block at its first fit, if any. */
  function PlaceTask(slots: seq<TimeSlot>, t: Task, workStart: int, workEnd: int): seq<TimeSlot>
  {
    match FirstFit(slots, TaskMs(t), workStart, workEnd)
    case None => slots
    case Some(f) => slots[..f.index] + [TaskBlock(t, f.start)] + slots[f.index..]
  }

  /** Without a fit the list is unchanged; with one, the task's block sits at the fit's
      position, and taking it out again gives back the list as it was. */
  lemma PlaceTaskInserts(slots: seq<TimeSlot>, t: Task, workStart: int, workEnd: int)
    ensures FirstFit(slots, TaskMs(t), workStart, workEnd).None? ==>
              PlaceTask(slots, t, workStart, workEnd) == slots
    ensures FirstFit(slots, TaskMs(t), workStart, workEnd).Some? ==>
              var f := FirstFit(slots, TaskMs(t), workStart, workEnd).value;
              var r := PlaceTask(slots, t, workStart, workEnd);
              |r| == |slots| + 1 && r[f.index] == TaskBlock(t, f.start) &&
              r[..f.index] + r[f.index + 1..] == slots &&
              multiset(r) == multiset(slots) + multiset{TaskBlock(t, f.start)}
  {
  }

  /** One pass of the source's placement loop (src/utils/scheduler.ts:52-136): try the four
      candidates in order on the block list and insert the task's block at the first that
      fits. `placed` is whether the task's id was recorded as scheduled. */
  method PlaceTaskStep(timeSlots: seq<TimeSlot>, task: Task, currentTime: int, endOfDay: int)
    returns (newSlots: seq<TimeSlot>, placed: bool)
    ensures newSlots == PlaceTask(timeSlots, task, currentTime, endOfDay)
    ensures placed == FirstFit(timeSlots, TaskMs(task), currentTime, endOfDay).Some?
  {
    var taskDurationMs := task.duration * 60 * 1000;
    var slotFound := false;
    newSlots, placed := timeSlots, false;

    if |newSlots| > 0 {
      var firstEvent := newSlots[0];
      var availableTime := firstEvent.start - currentTime;
      if availableTime >= taskDurationMs {
        var taskEnd := currentTime + taskDurationMs;
        newSlots := [TimeSlot("task-" + task.id, currentTime, taskEnd, TaskKind, task.title,
                              Some(task.id), None)] + newSlots;
        assert newSlots == timeSlots[..0] + [TaskBlock(task, currentTime)] + timeSlots[0..];
        placed := true;
        slotFound := true;
      }
    }

    if !slotFound {
      var i := 0;
      while i < |newSlots| - 1
        invariant 0 <= i
        invariant !slotFound && !placed && newSlots == timeSlots
        invariant forall q :: 1 <= q <= i && q < |timeSlots| ==>
                    Room(timeSlots, q, currentTime, endOfDay) < taskDurationMs
      {
        var currentSlot := newSlots[i];
        var nextSlot := newSlots[i + 1];
        var gapDuration := nextSlot.start - currentSlot.end;
        if gapDuration >= taskDurationMs {
          var taskStart := currentSlot.end;
          var taskEnd := taskStart + taskDurationMs;
          newSlots := newSlots[..i + 1]
                      + [TimeSlot("task-" + task.id, taskStart, taskEnd, TaskKind, task.title,
                                  Some(task.id), None)]
                      + newSlots[i + 1..];
          assert Room(timeSlots, i + 1, currentTime, endOfDay) == gapDuration;
          assert FirstGap(timeSlots, taskDurationMs, currentTime, endOfDay, 1) == Some(i + 1);
          placed := true;
          slotFound := true;
          break;
        }
        i := i + 1;
      }
    }

    if !slotFound && |newSlots| > 0 {
      var lastSlot := newSlots[|newSlots| - 1];
      var taskStart := lastSlot.end;
      var taskEnd := taskStart + taskDurationMs;
      if taskEnd <= endOfDay {
        newSlots := newSlots + [TimeSlot("task-" + task.id, taskStart, taskEnd, TaskKind, task.title,
                                         Some(task.id), None)];
        assert newSlots == timeSlots[..|timeSlots|] + [TaskBlock(task, taskStart)] + timeSlots[|timeSlots|..];
        placed := true;
        slotFound := true;
      }
    }

    if !slotFound && |newSlots| == 0 {
      var taskEnd := currentTime + taskDurationMs;
      if taskEnd <= endOfDay {
        newSlots := newSlots + [TimeSlot("task-" + task.id, currentTime, taskEnd, TaskKind, task.title,
                                         Some(task.id), None)];
        assert newSlots == timeSlots[..0] + [TaskBlock(task, currentTime)] + timeSlots[0..];
        placed := true;
      }
    }
  }

  /** The placement loop over `ts`, first task first. */
  function PlaceAll(slots: seq<TimeSlot>, ts: seq<Task>, workStart: int, workEnd: int): (r: seq<TimeSlot>)
  {
    if ts == [] then slots
    else PlaceTask(PlaceAll(slots, ts[..|ts| - 1], workStart, workEnd), ts[|ts| - 1], workStart, workEnd)
  }

  /** The loop adds at most one block per task and removes none. */
  lemma {:induction false} PlaceAllLength(slots: seq<TimeSlot>, ts: seq<Task>, workStart: int, workEnd: int)
    ensures |slots| <= |PlaceAll(slots, ts, workStart, workEnd)| <= |slots| + |ts|
    ensures multiset(slots) <= multiset(PlaceAll(slots, ts, workStart, workEnd))
  {
    if ts != [] {
      var before := PlaceAll(slots, ts[..|ts| - 1], workStart, workEnd);
      PlaceAllLength(slots, ts[..|ts| - 1], workStart, workEnd);
      match FirstFit(before, TaskMs(ts[|ts| - 1]), workStart, workEnd)
      case None =>
      case Some(f) => PlaceTaskInserts(before, ts[|ts| - 1], workStart, workEnd);
    }
  }

  // ---------------------------------------------------------------------------
  // Invariants of the block list

  /** Sorted by start and non-overlapping: every block ends no later than any later block starts. */
  predicate SortedDisjoint(s: seq<TimeSlot>)
  {
    (forall i :: 0 <= i < |s| ==> s[i].start <= s[i].end) &&
    (forall i, j :: 0 <= i < j < |s| ==> s[i].end <= s[j].start)
  }

  /** Every block starts inside the day; every block but an event also ends inside it. */
  predicate WithinDay(s: seq<TimeSlot>, workStart: int, workEnd: int)
  {
    forall i :: 0 <= i < |s| ==>
      workStart <= s[i].start <= workEnd && (s[i].kind != EventKind ==> s[i].end <= workEnd)
  }

  predicate WellFormed(s: seq<TimeSlot>, workStart: int, workEnd: int)
  {
    SortedDisjoint(s) && WithinDay(s, workStart, workEnd)
  }

  /** Where the elements of `slots` land once `b` is inserted at `p`. */
  lemma InsertIndex(slots: seq<TimeSlot>, p: nat, b: TimeSlot, i: nat)
    requires p <= |slots| && i <= |slots|
    ensures |slots[..p] + [b] + slots[p..]| == |slots| + 1
    ensures (slots[..p] + [b] + slots[p..])[i] == if i < p then slots[i] else if i == p then b else slots[i - 1]
  {
  }

  /** Inserting a block between neighbours it fits between keeps the list sorted and disjoint. */
  lemma InsertSortedDisjoint(slots: seq<TimeSlot>, p: nat, b: TimeSlot)
    requires SortedDisjoint(slots)
    requires p <= |slots| && b.start <= b.end
    requires p > 0 ==> slots[p - 1].end <= b.start
    requires p < |slots| ==> b.end <= slots[p].start
    ensures SortedDisjoint(slots[..p] + [b] + slots[p..])
  {
    var r := slots[..p] + [b] + slots[p..];
    forall i | 0 <= i < |r|
      ensures r[i].start <= r[i].end
    {
      InsertIndex(slots, p, b, i);
    }
    forall i, j | 0 <= i < j < |r|
      ensures r[i].end <= r[j].start
    {
      InsertIndex(slots, p, b, i);
      InsertIndex(slots, p, b, j);
      if i < p && j == p {
        assert slots[i].end <= slots[p - 1].end;
      } else if i < p && j > p {
        assert slots[i].end <= slots[p - 1].end <= b.start <= b.end <= slots[p].start <= slots[j - 1].start;
      } else if i == p && j > p + 1 {
        assert slots[p].start <= slots[p].end <= slots[j - 1].start;
      }
    }
  }

  /** Inserting a task block into a gap it fits keeps the list well formed. */
  lemma InsertWellFormed(slots: seq<TimeSlot>, p: nat, b: TimeSlot, workStart: int, workEnd: int)
    requires WellFormed(slots, workStart, workEnd)
    requires p <= |slots|
    requires b.kind == TaskKind && workStart <= b.start <= b.end <= workEnd
    requires p > 0 ==> slots[p - 1].end <= b.start
    requires p < |slots| ==> b.end <= slots[p].start
    ensures WellFormed(slots[..p] + [b] + slots[p..], workStart, workEnd)
  {
    InsertSortedDisjoint(slots, p, b);
    var r := slots[..p] + [b] + slots[p..];
    forall i | 0 <= i < |r|
      ensures workStart <= r[i].start <= workEnd && (r[i].kind != EventKind ==> r[i].end <= workEnd)
    {
      InsertIndex(slots, p, b, i);
    }
  }

  /** A single placement keeps the block list sorted, disjoint and inside the day. */
  lemma PlaceTaskWellFormed(slots: seq<TimeSlot>, t: Task, workStart: int, workEnd: int)
    requires WellFormed(slots, workStart, workEnd)
    requires t.duration >= 0
    ensures WellFormed(PlaceTask(slots, t, workStart, workEnd), workStart, workEnd)
  {
    match FirstFit(slots, TaskMs(t), workStart, workEnd)
    case None =>
    case Some(f) =>
      var p, b := f.index, TaskBlock(t, f.start);
      if p < |slots| {
        assert b.end <= slots[p].start <= workEnd;
      }
      if p > 0 {
        assert slots[p - 1].start <= slots[p - 1].end == b.start;
      }
      InsertWellFormed(slots, p, b, workStart, workEnd);
  }

  /** The whole placement loop keeps the block list sorted, disjoint and inside the day. */
  lemma {:induction false} PlaceAllWellFormed(slots: seq<TimeSlot>, ts: seq<Task>, workStart: int, workEnd: int)
    requires WellFormed(slots, workStart, workEnd)
    requires forall t :: t in ts ==> t.duration >= 0
    ensures WellFormed(PlaceAll(slots, ts, workStart, workEnd), workStart, workEnd)
  {
    if ts != [] {
      PlaceAllWellFormed(slots, ts[..|ts| - 1], workStart, workEnd);
      PlaceTaskWellFormed(PlaceAll(slots, ts[..|ts| - 1], workStart, workEnd), ts[|ts| - 1], workStart, workEnd);
    }
  }

  // ---------------------------------------------------------------------------
  // What placement adds and what it leaves alone

  /** The task id a block carries, if any. */
  function SlotTaskId(b: TimeSlot): Option<string>
  {
    b.taskId
  }

  function TaskIdOf(t: Task): Option<string>
  {
    Some(t.id)
  }

  /** Keeps event blocks only. */
  function AsEvent(b: TimeSlot): Option<TimeSlot>
  {
    if b.kind == EventKind then Some(b) else None
  }

  /** Placement only inserts task blocks: whatever ignores task blocks sees the list unchanged.
      In particular event blocks are never moved, resized, removed or reordered. */
  lemma {:induction false} PlaceAllKeeps<U>(f: TimeSlot -> Option<U>, slots: seq<TimeSlot>, ts: seq<Task>,
                                            workStart: int, workEnd: int)
    requires forall t, st :: f(TaskBlock(t, st)).None?
    ensures FilterMap(f, PlaceAll(slots, ts, workStart, workEnd)) == FilterMap(f, slots)
  {
    if ts != [] {
      var before := PlaceAll(slots, ts[..|ts| - 1], workStart, workEnd);
      var t := ts[|ts| - 1];
      PlaceAllKeeps(f, slots, ts[..|ts| - 1], workStart, workEnd);
      match FirstFit(before, TaskMs(t), workStart, workEnd)
      case None =>
      case Some(fit) =>
        FilterMapInsert(f, before, fit.index, TaskBlock(t, fit.start));
        assert f(TaskBlock(t, fit.start)).None?;
        assert FilterMap(f, [TaskBlock(t, fit.start)]) == [];
    }
  }

  /** One placement adds at most the task's own id. */
  lemma PlaceTaskTaskIds(slots: seq<TimeSlot>, t: Task, workStart: int, workEnd: int)
    ensures multiset(FilterMap(SlotTaskId, PlaceTask(slots, t, workStart, workEnd)))
            <= multiset(FilterMap(SlotTaskId, slots)) + multiset{t.id}
  {
    match FirstFit(slots, TaskMs(t), workStart, workEnd)
    case None =>
    case Some(fit) =>
      FilterMapInsert(SlotTaskId, slots, fit.index, TaskBlock(t, fit.start));
      assert FilterMap(SlotTaskId, [TaskBlock(t, fit.start)]) == [t.id];
  }

  lemma TaskIdsLast(ts: seq<Task>)
    requires ts != []
    ensures multiset(FilterMap(TaskIdOf, ts))
            == multiset(FilterMap(TaskIdOf, ts[..|ts| - 1])) + multiset{ts[|ts| - 1].id}
  {
    var init, t := ts[..|ts| - 1], ts[|ts| - 1];
    assert init + [t] == ts;
    FilterMapConcat(TaskIdOf, init, [t]);
    assert FilterMap(TaskIdOf, [t]) == [t.id];
  }

  /** Each task is handled once and yields at most one block tagged with its id: the task ids
      found on blocks are, as a multiset, among those already present plus those of `ts`. */
  lemma {:induction false} PlaceAllTaskIds(slots: seq<TimeSlot>, ts: seq<Task>, workStart: int, workEnd: int)
    ensures multiset(FilterMap(SlotTaskId, PlaceAll(slots, ts, workStart, workEnd)))
            <= multiset(FilterMap(SlotTaskId, slots)) + multiset(FilterMap(TaskIdOf, ts))
  {
    if ts != [] {
      var init := ts[..|ts| - 1];
      var t := ts[|ts| - 1];
      var before := PlaceAll(slots, init, workStart, workEnd);
      assert PlaceAll(slots, ts, workStart, workEnd) == PlaceTask(before, t, workStart, workEnd);
      PlaceAllTaskIds(slots, init, workStart, workEnd);
      PlaceTaskTaskIds(before, t, workStart, workEnd);
      TaskIdsLast(ts);
      var start, mid := multiset(FilterMap(SlotTaskId, slots)), multiset(FilterMap(SlotTaskId, before));
      var offered := multiset(FilterMap(TaskIdOf, init));
      SubMultisetGrow(multiset(FilterMap(SlotTaskId, PlaceTask(before, t, workStart, workEnd))), mid,
                      start + offered, multiset{t.id});
      assert start + offered + multiset{t.id} == start + multiset(FilterMap(TaskIdOf, ts));
    }
  }

  /** Every block placement adds is the block of one of the tasks offered. */
  lemma {:induction false} PlaceAllBlocks(slots: seq<TimeSlot>, ts: seq<Task>, workStart: int, workEnd: int)
    ensures forall b :: b in PlaceAll(slots, ts, workStart, workEnd) ==>
              b in slots || exists t :: t in ts && b == TaskBlock(t, b.start)
  {
    if ts != [] {
      var init := ts[..|ts| - 1];
      var before := PlaceAll(slots, init, workStart, workEnd);
      var t := ts[|ts| - 1];
      PlaceAllBlocks(slots, init, workStart, workEnd);
      forall b | b in PlaceAll(slots, ts, workStart, workEnd)
        ensures b in slots || exists u :: u in ts && b == TaskBlock(u, b.start)
      {
        if b !in before {
          assert b == TaskBlock(t, b.start) && t in ts;
        } else if b !in slots {
          var u :| u in init && b == TaskBlock(u, b.start);
          assert u in ts;
        }
      }
    }
  }
}

=== FILE: scenarios.dfy ===
/** Worked days for `generateSchedule`, with an 08:00-18:00 window on a day whose midnight
    is instant 0. */
module Scenarios {
  import opened Types
  import opened Collections
  import opened Sorting
  import opened Placement
  import opened Breaks
  import opened Scheduler

  const Hour := 60 * MsPerMinute
  const Nine := 9 * Hour
  const DayStart := 8 * Hour
  const DayEnd := 18 * Hour

  /** The plan, given the placement loop's result, when the break pass and sort are known. */
  lemma Finish(tasks: seq<Task>, events: seq<CalendarEvent>, placed: seq<TimeSlot>, slots: seq<TimeSlot>)
    requires Placed(tasks, events, DayStart, DayEnd) == placed
    requires WithBreaks(placed) == slots && SortedBy(slots, StartKey)
    ensures Schedule(tasks, events, DayStart, DayEnd)
            == SchedulePlan(slots, RoundToMinutes(TotalMs(slots)), Unscheduled(Incomplete(tasks), ScheduledIds(placed)))
  {
    SortedIsFixed(slots, StartKey);
  }

  /** The break pass on one block. */
  lemma WithBreaksSingle(x: TimeSlot)
    ensures WithBreaks([x]) == [x]
  {
    assert Expanded([x], 1) == Expanded([x], 0) + Piece([x], 0);
  }

  /** The break pass on two blocks. */
  lemma WithBreaksPair(x: TimeSlot, y: TimeSlot)
    ensures WithBreaks([x, y]) == if NeedsBreak(x, y) then [x, BreakAfter(x, y), y] else [x, y]
  {
    assert Expanded([x, y], 2) == Expanded([x, y], 1) + Piece([x, y], 1);
    assert Expanded([x, y], 1) == Expanded([x, y], 0) + Piece([x, y], 0);
  }

  /** With one incomplete task and one event inside the window, the placement loop makes a
      single pass over the event's block. */
  lemma OneTaskOneEvent(t: Task, e: CalendarEvent)
    requires !IsCompleted(t) && StartsInDay(e, DayStart, DayEnd)
    ensures Placed([t], [e], DayStart, DayEnd) == PlaceTask([EventBlock(e)], t, DayStart, DayEnd)
  {
    assert Incomplete([t]) == [t];
    assert SortTasks([t]) == [t];
    assert TodaysEvents([e], DayStart, DayEnd) == [e];
    assert EventBlocks([e]) == [EventBlock(e)];
    assert DaySlots([e], DayStart, DayEnd) == [EventBlock(e)];
    assert [t][..0] == [];
    var day := [EventBlock(e)];
    assert PlaceAll(day, [t], DayStart, DayEnd) == PlaceTask(PlaceAll(day, [], DayStart, DayEnd), t, DayStart, DayEnd);
  }

  /** On an empty day a lone incomplete task that fits the window starts at its start and
      is all the plan holds: no break follows it, however long it is, since the break pass
      only adds a break in front of a later block. */
  lemma LoneTask(t: Task)
    requires !IsCompleted(t) && 0 <= t.duration <= 600
    ensures Schedule([t], [], DayStart, DayEnd) == SchedulePlan([TaskBlock(t, DayStart)], t.duration, [])
  {
    var b := TaskBlock(t, DayStart);
    LonePlaced(t, b);
    WithBreaksSingle(b);
    Finish([t], [], [b], [b]);
    LoneRest(t, b);
  }

  lemma LonePlaced(t: Task, b: TimeSlot)
    requires !IsCompleted(t) && 0 <= t.duration <= 600
    requires b == TaskBlock(t, DayStart)
    ensures Placed([t], [], DayStart, DayEnd) == [b]
  {
    assert Incomplete([t]) == [t];
    assert SortTasks([t]) == [t];
    assert DaySlots([], DayStart, DayEnd) == [];
    assert [t][..0] == [];
    assert PlaceAll([], [t], DayStart, DayEnd) == PlaceTask(PlaceAll([], [], DayStart, DayEnd), t, DayStart, DayEnd);
    assert FirstFit([], TaskMs(t), DayStart, DayEnd) == Some(Fit(0, DayStart));
  }


  lemma LoneRest(t: Task, b: TimeSlot)
    requires !IsCompleted(t)
    requires b == TaskBlock(t, DayStart)
    ensures Unscheduled(Incomplete([t]), ScheduledIds([b])) == []
    ensures RoundToMinutes(TotalMs([b])) == t.duration
  {
    assert FilterMap(SlotTaskId, [b]) == [t.id];
    assert ScheduledIds([b]) == {t.id};
    assert Incomplete([t]) == [t];
    assert TotalMs([b]) == t.duration * MsPerMinute;
  }

  lemma MeetingDayPlaced(t: Task, e: CalendarEvent, b: TimeSlot, m: TimeSlot)
    requires t == Task("a", "Write", 45, Some(High), None)
    requires e == CalendarEvent("m", "Meeting", Nine, Nine + 30 * MsPerMinute, None)
    requires b == TimeSlot("task-a", DayStart, DayStart + 45 * MsPerMinute, TaskKind, "Write", Some("a"), None)
    requires m == TimeSlot("event-m", Nine, Nine + 30 * MsPerMinute, EventKind, "Meeting", None, Some("m"))
    ensures Placed([t], [e], DayStart, DayEnd) == [b, m]
  {
    OneTaskOneEvent(t, e);
    assert EventBlock(e) == m;
    assert FirstFit([m], TaskMs(t), DayStart, DayEnd) == Some(Fit(0, DayStart));
    assert TaskBlock(t, DayStart) == b;
  }


  /** Nothing is left over and the total is 75 minutes. */
  lemma MeetingDayRest(t: Task, b: TimeSlot, m: TimeSlot)
    requires t == Task("a", "Write", 45, Some(High), None)
    requires b == TimeSlot("task-a", DayStart, DayStart + 45 * MsPerMinute, TaskKind, "Write", Some("a"), None)
    requires m == TimeSlot("event-m", Nine, Nine + 30 * MsPerMinute, EventKind, "Meeting", None, Some("m"))
    ensures Unscheduled(Incomplete([t]), ScheduledIds([b, m])) == []
    ensures RoundToMinutes(TotalMs([b, m])) == 75
  {
    assert [b, m][1..] == [m] && [m][1..] == [];
    assert FilterMap(SlotTaskId, [m]) == [];
    assert FilterMap(SlotTaskId, [b, m]) == ["a"];
    assert ScheduledIds([b, m]) == {"a"};
    assert Incomplete([t]) == [t];
    assert TotalMs([m]) == 30 * MsPerMinute;
    assert TotalMs([b, m]) == 75 * MsPerMinute;
  }

  /** A 45-minute task goes in front of a 09:00-09:30 meeting, since the hour before it is
      free; the meeting block is copied from the event. */
  lemma TaskBeforeMeeting(t: Task, e: CalendarEvent)
    requires t == Task("a", "Write", 45, Some(High), None)
    requires e == CalendarEvent("m", "Meeting", Nine, Nine + 30 * MsPerMinute, None)
    ensures Schedule([t], [e], DayStart, DayEnd)
            == SchedulePlan([TimeSlot("task-a", DayStart, DayStart + 45 * MsPerMinute, TaskKind, "Write", Some("a"), None),
                             TimeSlot("event-m", Nine, Nine + 30 * MsPerMinute, EventKind, "Meeting", None, Some("m"))],
                            75, [])
  {
    var b := TimeSlot("task-a", DayStart, DayStart + 45 * MsPerMinute, TaskKind, "Write", Some("a"), None);
    var m := TimeSlot("event-m", Nine, Nine + 30 * MsPerMinute, EventKind, "Meeting", None, Some("m"));
    MeetingDayPlaced(t, e, b, m);
    WithBreaksPair(b, m);
    Finish([t], [e], [b, m], [b, m]);
    MeetingDayRest(t, b, m);
  }

  lemma LongTaskPlaced(t: Task, e: CalendarEvent, b: TimeSlot, m: TimeSlot)
    requires t == Task("a", "Deep work", 90, Some(High), None)
    requires e == CalendarEvent("m", "Meeting", 10 * Hour, 11 * Hour, None)
    requires b == TaskBlock(t, DayStart) && m == EventBlock(e)
    ensures Placed([t], [e], DayStart, DayEnd) == [b, m]
  {
    OneTaskOneEvent(t, e);
    assert FirstFit([m], TaskMs(t), DayStart, DayEnd) == Some(Fit(0, DayStart));
  }


  lemma LongTaskRest(t: Task, b: TimeSlot, r: TimeSlot, m: TimeSlot)
    requires t == Task("a", "Deep work", 90, Some(High), None)
    requires b == TimeSlot("task-a", DayStart, DayStart + 90 * MsPerMinute, TaskKind, "Deep work", Some("a"), None)
    requires r == TimeSlot("break-task-a", DayStart + 90 * MsPerMinute, DayStart + 105 * MsPerMinute, BreakKind, "Break", None, None)
    requires m == TimeSlot("event-m", 10 * Hour, 11 * Hour, EventKind, "Meeting", None, Some("m"))
    ensures Unscheduled(Incomplete([t]), ScheduledIds([b, m])) == []
    ensures SortedBy([b, r, m], StartKey)
    ensures RoundToMinutes(TotalMs([b, r, m])) == 165
  {
    assert [b, m][1..] == [m] && [m][1..] == [];
    assert FilterMap(SlotTaskId, [m]) == [];
    assert FilterMap(SlotTaskId, [b, m]) == ["a"];
    assert ScheduledIds([b, m]) == {"a"};
    assert Incomplete([t]) == [t];
    assert [b, r, m][1..] == [r, m] && [r, m][1..] == [m];
    assert TotalMs([m]) == 60 * MsPerMinute;
    assert TotalMs([r, m]) == 75 * MsPerMinute;
    assert TotalMs([b, r, m]) == 165 * MsPerMinute;
  }

  /** A 90-minute task before a 10:00 meeting runs 08:00-09:30 and is followed by a
      15-minute break, since the session is over an hour and the gap to the meeting is
      at least 15 minutes. */
  lemma BreakAfterLongTask(t: Task, e: CalendarEvent)
    requires t == Task("a", "Deep work", 90, Some(High), None)
    requires e == CalendarEvent("m", "Meeting", 10 * Hour, 11 * Hour, None)
    ensures Schedule([t], [e], DayStart, DayEnd)
            == SchedulePlan([TimeSlot("task-a", DayStart, DayStart + 90 * MsPerMinute, TaskKind, "Deep work", Some("a"), None),
                             TimeSlot("break-task-a", DayStart + 90 * MsPerMinute, DayStart + 105 * MsPerMinute, BreakKind,
                                      "Break", None, None),
                             TimeSlot("event-m", 10 * Hour, 11 * Hour, EventKind, "Meeting", None, Some("m"))],
                            165, [])
  {
    var b := TaskBlock(t, DayStart);
    var m := EventBlock(e);
    LongTaskPlaced(t, e, b, m);
    assert NeedsBreak(b, m);
    var r := BreakAfter(b, m);
    assert r == TimeSlot("break-task-a", DayStart + 90 * MsPerMinute, DayStart + 105 * MsPerMinute, BreakKind, "Break", None, None);
    WithBreaksPair(b, m);
    LongTaskRest(t, b, r, m);
    Finish([t], [e], [b, m], [b, r, m]);
  }

  lemma FullDayPlaced(t: Task, e: CalendarEvent, m: TimeSlot)
    requires t == Task("a", "Report", 600, Some(High), None)
    requires e == CalendarEvent("m", "Meeting", Nine, Nine + 30 * MsPerMinute, None)
    requires m == TimeSlot("event-m", Nine, Nine + 30 * MsPerMinute, EventKind, "Meeting", None, Some("m"))
    ensures Placed([t], [e], DayStart, DayEnd) == [m]
  {
    OneTaskOneEvent(t, e);
    assert EventBlock(e) == m;
    assert FirstGap([m], TaskMs(t), DayStart, DayEnd, 1) == None;
    assert FirstFit([m], TaskMs(t), DayStart, DayEnd) == None;
  }


  /** A ten-hour task does not fit a ten-hour window holding a half-hour meeting: it is
      reported as unscheduled and the plan is the meeting alone. */
  lemma TaskTooLong(t: Task, e: CalendarEvent)
    requires t == Task("a", "Report", 600, Some(High), None)
    requires e == CalendarEvent("m", "Meeting", Nine, Nine + 30 * MsPerMinute, None)
    ensures Schedule([t], [e], DayStart, DayEnd)
            == SchedulePlan([TimeSlot("event-m", Nine, Nine + 30 * MsPerMinute, EventKind, "Meeting", None, Some("m"))],
                            30, [t])
  {
    var m := TimeSlot("event-m", Nine, Nine + 30 * MsPerMinute, EventKind, "Meeting", None, Some("m"));
    FullDayPlaced(t, e, m);
    WithBreaksSingle(m);
    Finish([t], [e], [m], [m]);
    FullDayRest(t, e, m);
  }

  lemma FullDayRest(t: Task, e: CalendarEvent, m: TimeSlot)
    requires t == Task("a", "Report", 600, Some(High), None)
    requires e == CalendarEvent("m", "Meeting", Nine, Nine + 30 * MsPerMinute, None)
    requires m == TimeSlot("event-m", Nine, Nine + 30 * MsPerMinute, EventKind, "Meeting", None, Some("m"))
    ensures Unscheduled(Incomplete([t]), ScheduledIds([m])) == [t]
    ensures RoundToMinutes(TotalMs([m])) == 30
  {
    assert FilterMap(SlotTaskId, [m]) == [];
    assert ScheduledIds([m]) == {};
    assert Incomplete([t]) == [t];
    assert TotalMs([m]) == 30 * MsPerMinute;
  }

  lemma PriorityOrder(lo: Task, hi: Task)
    requires lo == Task("l", "Filing", 30, Some(Low), None)
    requires hi == Task("h", "Review", 30, Some(High), None)
    ensures SortTasks(Incomplete([lo, hi])) == [hi, lo]
  {
    assert TaskKey(lo) == Key(-1, 30) && TaskKey(hi) == Key(-3, 30);
    assert Incomplete([lo, hi]) == [lo, hi];
    assert [hi][1..] == [];
    assert InsertPos(hi, [], TaskKey) == 0;
    assert StableSort([hi], TaskKey) == [hi];
    assert [lo, hi][1..] == [hi];
    assert !KeyLe(TaskKey(lo), TaskKey(hi));
    assert InsertPos(lo, [hi], TaskKey) == 1;
    assert Insert(lo, [hi], TaskKey) == [hi, lo];
  }

  /** The placement loop over two tasks. */
  lemma PlaceAllTwo(slots: seq<TimeSlot>, t: Task, u: Task)
    ensures PlaceAll(slots, [t, u], DayStart, DayEnd)
            == PlaceTask(PlaceTask(slots, t, DayStart, DayEnd), u, DayStart, DayEnd)
  {
    assert [t, u][..1] == [t] && [t][..0] == [];
    assert PlaceAll(slots, [t], DayStart, DayEnd) == PlaceTask(PlaceAll(slots, [], DayStart, DayEnd), t, DayStart, DayEnd);
  }

  lemma PriorityFirstBlock(hi: Task, h: TimeSlot)
    requires hi == Task("h", "Review", 30, Some(High), None)
    requires h == TaskBlock(hi, DayStart)
    ensures PlaceTask([], hi, DayStart, DayEnd) == [h]
  {
    assert FirstFit([], TaskMs(hi), DayStart, DayEnd) == Some(Fit(0, DayStart));
  }

  lemma PrioritySecondBlock(lo: Task, h: TimeSlot, l: TimeSlot)
    requires lo == Task("l", "Filing", 30, Some(Low), None)
    requires h.start == DayStart && h.end == DayStart + 30 * MsPerMinute
    requires l == TaskBlock(lo, DayStart + 30 * MsPerMinute)
    ensures PlaceTask([h], lo, DayStart, DayEnd) == [h, l]
  {
    assert FirstGap([h], TaskMs(lo), DayStart, DayEnd, 1) == None;
    assert FirstFit([h], TaskMs(lo), DayStart, DayEnd) == Some(Fit(1, DayStart + 30 * MsPerMinute));
  }

  lemma PriorityPlaced(lo: Task, hi: Task, h: TimeSlot, l: TimeSlot)
    requires lo == Task("l", "Filing", 30, Some(Low), None)
    requires hi == Task("h", "Review", 30, Some(High), None)
    requires h == TaskBlock(hi, DayStart) && l == TaskBlock(lo, DayStart + 30 * MsPerMinute)
    ensures Placed([lo, hi], [], DayStart, DayEnd) == [h, l]
  {
    PriorityOrder(lo, hi);
    assert DaySlots([], DayStart, DayEnd) == [];
    PlaceAllTwo([], hi, lo);
    PriorityFirstBlock(hi, h);
    PrioritySecondBlock(lo, h, l);
  }

  lemma PriorityRest(lo: Task, hi: Task, h: TimeSlot, l: TimeSlot)
    requires lo == Task("l", "Filing", 30, Some(Low), None)
    requires hi == Task("h", "Review", 30, Some(High), None)
    requires h == TaskBlock(hi, DayStart) && l == TaskBlock(lo, DayStart + 30 * MsPerMinute)
    ensures Unscheduled(Incomplete([lo, hi]), ScheduledIds([h, l])) == []
    ensures RoundToMinutes(TotalMs([h, l])) == 60
  {
    assert [h, l][1..] == [l] && [l][1..] == [];
    assert FilterMap(SlotTaskId, [l]) == ["l"];
    assert FilterMap(SlotTaskId, [h, l]) == ["h", "l"];
    assert ScheduledIds([h, l]) == {"h", "l"};
    assert Incomplete([lo, hi]) == [lo, hi];
    assert [lo, hi][1..] == [hi] && [hi][1..] == [];
    assert TotalMs([l]) == 30 * MsPerMinute;
    assert TotalMs([h, l]) == 60 * MsPerMinute;
  }

  /** A high-priority task listed after a low-priority one of the same length is placed
      first, at the start of the window; the low-priority one follows it. */
  lemma HighPriorityFirst(lo: Task, hi: Task)
    requires lo == Task("l", "Filing", 30, Some(Low), None)
    requires hi == Task("h", "Review", 30, Some(High), None)
    ensures Schedule([lo, hi], [], DayStart, DayEnd)
            == SchedulePlan([TaskBlock(hi, DayStart), TaskBlock(lo, DayStart + 30 * MsPerMinute)], 60, [])
  {
    var h := TaskBlock(hi, DayStart);
    var l := TaskBlock(lo, DayStart + 30 * MsPerMinute);
    PriorityPlaced(lo, hi, h, l);
    WithBreaksPair(h, l);
    PriorityRest(lo, hi, h, l);
    Finish([lo, hi], [], [h, l], [h, l]);
  }

  /** An event that starts before the window is left out of the plan altogether, even
      though it runs into the window: the task is placed at 08:00 on top of it. */
  lemma EarlyEventIgnored(t: Task, e: CalendarEvent)
    requires t == Task("a", "Write", 30, Some(High), None)
    requires e == CalendarEvent("m", "Breakfast meeting", DayStart - 30 * MsPerMinute, Nine, None)
    ensures Schedule([t], [e], DayStart, DayEnd) == SchedulePlan([TaskBlock(t, DayStart)], 30, [])
    ensures TaskBlock(t, DayStart).start < e.end
  {
    assert TodaysEvents([e], DayStart, DayEnd) == [];
    assert EventBlocks([]) == [];
    assert DaySlots([e], DayStart, DayEnd) == DaySlots([], DayStart, DayEnd);
    assert Schedule([t], [e], DayStart, DayEnd) == Schedule([t], [], DayStart, DayEnd);
    LoneTask(t);
  }
}

=== FILE: scheduler.dfy ===
/** `generateSchedule` (src/utils/scheduler.ts:7-159): the imperative pipeline as a method,
    its value as the function `Schedule`, and the properties of the plan it returns.
    "Today" is not read from a clock: the working window [workStart, workEnd] is passed in,
    in milliseconds. */
module Scheduler {
  import opened Types
  import opened Collections
  import opened Sorting
  import opened Placement
  import opened Breaks

  /** A block's length in milliseconds. */
  function SlotMs(b: TimeSlot): int
  {
    b.end - b.start
  }

  /** The `reduce` of the source: milliseconds summed over all blocks. */
  function TotalMs(s: seq<TimeSlot>): (r: int)
  {
    if s == [] then 0 else SlotMs(s[0]) + TotalMs(s[1..])
  }

  /** `Math.round(ms / (1000 * 60))`: the nearest whole minute, a half rounded up
      (`Math.round` rounds halves towards positive infinity, which is what adding half a
      minute and taking the floor does). */
  function RoundToMinutes(ms: int): (r: int)
    ensures r * 60000 - 30000 <= ms < r * 60000 + 30000
  {
    (ms + 30000) / 60000
  }

  /** The ids recorded as scheduled: those carried by task blocks. */
  function ScheduledIds(s: seq<TimeSlot>): set<string>
  {
    set id | id in FilterMap(SlotTaskId, s)
  }

  /** The tasks whose id was not recorded as scheduled, in their input order. */
  function Unscheduled(ts: seq<Task>, scheduled: set<string>): (r: seq<Task>)
    ensures |r| <= |ts|
    ensures forall t :: t in r <==> t in ts && t.id !in scheduled
  {
    if ts == [] then []
    else (if ts[0].id in scheduled then [] else [ts[0]]) + Unscheduled(ts[1..], scheduled)
  }

  /** Where each leftover task sits in the list it was filtered from. */
  lemma {:induction false} UnscheduledIndex(ts: seq<Task>, scheduled: set<string>) returns (idx: seq<nat>)
    ensures IsIndexMap(idx, Unscheduled(ts, scheduled), ts)
  {
    if ts == [] {
      idx := [];
    } else {
      var rest := UnscheduledIndex(ts[1..], scheduled);
      idx := IndexMapCons(ts[0], ts[1..], Unscheduled(ts[1..], scheduled), rest, ts[0].id !in scheduled);
      assert [ts[0]] + ts[1..] == ts;
    }
  }

  /** Where each incomplete task sits in the input. */
  lemma {:induction false} IncompleteIndex(tasks: seq<Task>) returns (idx: seq<nat>)
    ensures IsIndexMap(idx, Incomplete(tasks), tasks)
  {
    if tasks == [] {
      idx := [];
    } else {
      var rest := IncompleteIndex(tasks[1..]);
      idx := IndexMapCons(tasks[0], tasks[1..], Incomplete(tasks[1..]), rest, !IsCompleted(tasks[0]));
      assert [tasks[0]] + tasks[1..] == tasks;
    }
  }

  /** The leftover tasks appear in the order the input lists them, not in placement order:
      the list is a subsequence of the input. */
  lemma LeftoverInInputOrder(tasks: seq<Task>, scheduled: set<string>)
    ensures exists idx :: IsIndexMap(idx, Unscheduled(Incomplete(tasks), scheduled), tasks)
  {
    var inner := UnscheduledIndex(Incomplete(tasks), scheduled);
    var outer := IncompleteIndex(tasks);
    var idx := IndexMapCompose(inner, Unscheduled(Incomplete(tasks), scheduled), Incomplete(tasks), outer, tasks);
  }

  /** The block list after the placement loop. */
  function Placed(tasks: seq<Task>, events: seq<CalendarEvent>, workStart: int, workEnd: int): seq<TimeSlot>
  {
    PlaceAll(DaySlots(events, workStart, workEnd), SortTasks(Incomplete(tasks)), workStart, workEnd)
  }

  /** The plan `generateSchedule` returns. */
  function Schedule(tasks: seq<Task>, events: seq<CalendarEvent>, workStart: int, workEnd: int): (plan: SchedulePlan)
    ensures multiset(plan.timeSlots) == multiset(WithBreaks(Placed(tasks, events, workStart, workEnd)))
    ensures plan.totalDuration == RoundToMinutes(TotalMs(plan.timeSlots))
    ensures |plan.unscheduledTasks| <= |tasks|
  {
    var placed := Placed(tasks, events, workStart, workEnd);
    var slots := StableSort(WithBreaks(placed), StartKey);
    SchedulePlan(slots, RoundToMinutes(TotalMs(slots)),
                 Unscheduled(Incomplete(tasks), ScheduledIds(placed)))
  }

  /** No block of the event skeleton carries a task id. */
  lemma DaySlotsUntagged(events: seq<CalendarEvent>, workStart: int, workEnd: int)
    ensures FilterMap(SlotTaskId, DaySlots(events, workStart, workEnd)) == []
    ensures ScheduledIds(DaySlots(events, workStart, workEnd)) == {}
  {
    var s := DaySlots(events, workStart, workEnd);
    DaySlotsAreTodaysEvents(events, workStart, workEnd);
    forall i | 0 <= i < |s|
      ensures SlotTaskId(s[i]).None?
    {
      assert s[i] in s;
    }
    FilterMapNone(SlotTaskId, s);
  }

  /** A placement records exactly the placed task's id. */
  lemma PlaceTaskScheduledIds(slots: seq<TimeSlot>, t: Task, workStart: int, workEnd: int)
    ensures ScheduledIds(PlaceTask(slots, t, workStart, workEnd))
            == ScheduledIds(slots) + (if FirstFit(slots, TaskMs(t), workStart, workEnd).Some? then {t.id} else {})
  {
    match FirstFit(slots, TaskMs(t), workStart, workEnd)
    case None =>
    case Some(f) =>
      FilterMapInsert(SlotTaskId, slots, f.index, TaskBlock(t, f.start));
      assert FilterMap(SlotTaskId, [TaskBlock(t, f.start)]) == [t.id];
  }

  /** One more pass of the placement loop. */
  lemma PlaceAllNext(slots: seq<TimeSlot>, ts: seq<Task>, k: nat, workStart: int, workEnd: int)
    requires k < |ts|
    ensures PlaceAll(slots, ts[..k + 1], workStart, workEnd)
            == PlaceTask(PlaceAll(slots, ts[..k], workStart, workEnd), ts[k], workStart, workEnd)
  {
    assert ts[..k + 1][..k] == ts[..k];
  }

  /** Today's events as fixed blocks, sorted by start (src/utils/scheduler.ts:26-45). */
  method FixedEventSlots(events: seq<CalendarEvent>, startOfDay: int, endOfDay: int)
    returns (timeSlots: seq<TimeSlot>)
    ensures timeSlots == DaySlots(events, startOfDay, endOfDay)
  {
    var todaysEvents := TodaysEvents(events, startOfDay, endOfDay);
    timeSlots := [];
    for i := 0 to |todaysEvents|
      invariant timeSlots == EventBlocks(todaysEvents[..i])
    {
      var event := todaysEvents[i];
      timeSlots := timeSlots + [TimeSlot("event-" + event.id, event.start, event.end, EventKind,
                                         event.title, None, Some(event.id))];
      assert todaysEvents[..i + 1][..i] == todaysEvents[..i];
    }
    assert todaysEvents[..|todaysEvents|] == todaysEvents;
    timeSlots := StableSort(timeSlots, StartKey);
  }

  /** The source's steps, in order: filter, sort, event blocks, first-fit placement loop,
      break pass, final sort, leftover tasks and total. */
  method GenerateSchedule(tasks: seq<Task>, events: seq<CalendarEvent>, workStart: int, workEnd: int)
    returns (plan: SchedulePlan)
    ensures plan == Schedule(tasks, events, workStart, workEnd)
  {
    var incompleteTasks := Incomplete(tasks);
    var sortedTasks := SortTasks(incompleteTasks);

    var timeSlots := FixedEventSlots(events, workStart, workEnd);
    ghost var skeleton := timeSlots;
    DaySlotsUntagged(events, workStart, workEnd);
    var scheduledTaskIds: set<string> := {};
    var currentTime := workStart;

    for k := 0 to |sortedTasks|
      invariant timeSlots == PlaceAll(skeleton, sortedTasks[..k], workStart, workEnd)
      invariant scheduledTaskIds == ScheduledIds(timeSlots)
    {
      var task := sortedTasks[k];
      ghost var before := timeSlots;
      var placed;
      timeSlots, placed := PlaceTaskStep(timeSlots, task, currentTime, workEnd);
      if placed {
        scheduledTaskIds := scheduledTaskIds + {task.id};
      }
      PlaceAllNext(skeleton, sortedTasks, k, workStart, workEnd);
      PlaceTaskScheduledIds(before, task, workStart, workEnd);
    }
    assert sortedTasks[..|sortedTasks|] == sortedTasks;

    var enhancedTimeSlots := AddBreakTimes(timeSlots);
    enhancedTimeSlots := StableSort(enhancedTimeSlots, StartKey);
    var unscheduledTasks := Unscheduled(incompleteTasks, scheduledTaskIds);
    var totalDuration := TotalMs(enhancedTimeSlots);
    plan := SchedulePlan(enhancedTimeSlots, RoundToMinutes(totalDuration), unscheduledTasks);
  }

  // ---------------------------------------------------------------------------
  // Properties of the plan

  /** The final sort and the break pass add nothing but breaks: any other block of the
      plan is a block of the placement loop's result. */
  lemma FinalBlocks(placed: seq<TimeSlot>, b: TimeSlot)
    requires b in StableSort(WithBreaks(placed), StartKey)
    ensures b in placed || b.kind == BreakKind
  {
    assert b in multiset(WithBreaks(placed));
    ExpandedMembers(placed, |placed|);
  }

  /** The event skeleton consists of event blocks that start inside the window. */
  lemma DaySlotsAreEvents(events: seq<CalendarEvent>, workStart: int, workEnd: int)
    ensures FilterMap(AsEvent, DaySlots(events, workStart, workEnd)) == DaySlots(events, workStart, workEnd)
    ensures forall b :: b in DaySlots(events, workStart, workEnd) ==>
              b.kind == EventKind && workStart <= b.start <= workEnd
  {
    var day := DaySlots(events, workStart, workEnd);
    DaySlotsAreTodaysEvents(events, workStart, workEnd);
    forall i | 0 <= i < |day|
      ensures AsEvent(day[i]) == Some(day[i])
    {
      assert day[i] in day;
    }
    FilterMapAll(AsEvent, day);
  }

  /** Every task block after the placement loop is the block of an incomplete input task. */
  lemma PlacedTaskBlocks(tasks: seq<Task>, events: seq<CalendarEvent>, workStart: int, workEnd: int, b: TimeSlot)
    requires b in Placed(tasks, events, workStart, workEnd) && b.kind == TaskKind
    ensures exists t :: t in tasks && !IsCompleted(t) && b == TaskBlock(t, b.start)
  {
    var inc := Incomplete(tasks);
    var sorted := SortTasks(inc);
    assert exists t :: t in sorted && b == TaskBlock(t, b.start) by {
      var day := DaySlots(events, workStart, workEnd);
      PlaceAllBlocks(day, sorted, workStart, workEnd);
      DaySlotsAreEvents(events, workStart, workEnd);
      assert b !in day;
    }
    var t :| t in sorted && b == TaskBlock(t, b.start);
    assert t in inc by {
      assert t in multiset(sorted);
    }
  }

  /** Completed tasks are ignored: they are never reported as left over, and every task
      block in the plan is the block of an incomplete input task, exactly its length. */
  lemma CompletedTasksIgnored(tasks: seq<Task>, events: seq<CalendarEvent>, workStart: int, workEnd: int)
    ensures forall t :: t in Schedule(tasks, events, workStart, workEnd).unscheduledTasks ==>
              t in tasks && !IsCompleted(t)
    ensures forall b :: b in Schedule(tasks, events, workStart, workEnd).timeSlots && b.kind == TaskKind ==>
              exists t :: t in tasks && !IsCompleted(t) && b == TaskBlock(t, b.start)
  {
    var placed := Placed(tasks, events, workStart, workEnd);
    forall b | b in Schedule(tasks, events, workStart, workEnd).timeSlots && b.kind == TaskKind
      ensures exists t :: t in tasks && !IsCompleted(t) && b == TaskBlock(t, b.start)
    {
      FinalBlocks(placed, b);
      PlacedTaskBlocks(tasks, events, workStart, workEnd, b);
    }
  }

  /** Task ids on the plan's blocks are those on the placement loop's result. */
  lemma FinalTaskIds(placed: seq<TimeSlot>)
    ensures multiset(FilterMap(SlotTaskId, StableSort(WithBreaks(placed), StartKey)))
            == multiset(FilterMap(SlotTaskId, placed))
  {
    StableSortFilterMap(SlotTaskId, WithBreaks(placed), StartKey);
    WithBreaksKeeps(SlotTaskId, placed);
  }

  /** The ids carried by blocks after the placement loop are among the incomplete tasks' ids. */
  lemma PlacedTaskIds(tasks: seq<Task>, events: seq<CalendarEvent>, workStart: int, workEnd: int)
    ensures multiset(FilterMap(SlotTaskId, Placed(tasks, events, workStart, workEnd)))
            <= multiset(FilterMap(TaskIdOf, Incomplete(tasks)))
  {
    var inc := Incomplete(tasks);
    PlaceAllTaskIds(DaySlots(events, workStart, workEnd), SortTasks(inc), workStart, workEnd);
    DaySlotsUntagged(events, workStart, workEnd);
    StableSortFilterMap(TaskIdOf, inc, TaskKey);
  }

  /** Placed or reported, never both: an incomplete task is left over exactly when no block
      carries its id; and the ids on blocks, counted with multiplicity, are among the ids of
      the incomplete tasks, so a task gets at most as many blocks as there are tasks with
      its id. */
  lemma PlacedOrReported(tasks: seq<Task>, events: seq<CalendarEvent>, workStart: int, workEnd: int)
    ensures forall t :: t in tasks && !IsCompleted(t) ==>
              (t in Schedule(tasks, events, workStart, workEnd).unscheduledTasks
               <==> t.id !in FilterMap(SlotTaskId, Schedule(tasks, events, workStart, workEnd).timeSlots))
    ensures multiset(FilterMap(SlotTaskId, Schedule(tasks, events, workStart, workEnd).timeSlots))
            <= multiset(FilterMap(TaskIdOf, Incomplete(tasks)))
  {
    var placed := Placed(tasks, events, workStart, workEnd);
    var ids := FilterMap(SlotTaskId, Schedule(tasks, events, workStart, workEnd).timeSlots);
    FinalTaskIds(placed);
    PlacedTaskIds(tasks, events, workStart, workEnd);
    forall t | t in tasks && !IsCompleted(t)
      ensures t.id in ids <==> t.id in ScheduledIds(placed)
    {
      assert t.id in ids <==> t.id in multiset(ids);
      assert t.id in FilterMap(SlotTaskId, placed) <==> t.id in multiset(FilterMap(SlotTaskId, placed));
    }
  }

  /** Distinct ids occur once each. */
  lemma {:induction false} DistinctIdsOnce(ts: seq<Task>)
    requires forall i, j :: 0 <= i < j < |ts| ==> ts[i].id != ts[j].id
    ensures forall id :: multiset(FilterMap(TaskIdOf, ts))[id] <= 1
  {
    if ts != [] {
      DistinctIdsOnce(ts[1..]);
      FilterMapMember(TaskIdOf, ts[1..], ts[0].id);
      assert FilterMap(TaskIdOf, ts) == [ts[0].id] + FilterMap(TaskIdOf, ts[1..]);
      assert ts[0].id !in FilterMap(TaskIdOf, ts[1..]);
    }
  }

  /** With unique ids among the incomplete tasks, no task gets more than one block. */
  lemma AtMostOneBlockPerTask(tasks: seq<Task>, events: seq<CalendarEvent>, workStart: int, workEnd: int)
    requires forall i, j :: 0 <= i < j < |Incomplete(tasks)| ==> Incomplete(tasks)[i].id != Incomplete(tasks)[j].id
    ensures forall id :: multiset(FilterMap(SlotTaskId, Schedule(tasks, events, workStart, workEnd).timeSlots))[id] <= 1
  {
    PlacedOrReported(tasks, events, workStart, workEnd);
    DistinctIdsOnce(Incomplete(tasks));
  }

  /** Placement and the break pass leave the event blocks as they were, in order. */
  lemma PlacedEvents(tasks: seq<Task>, events: seq<CalendarEvent>, workStart: int, workEnd: int)
    ensures FilterMap(AsEvent, WithBreaks(Placed(tasks, events, workStart, workEnd)))
            == DaySlots(events, workStart, workEnd)
  {
    var day := DaySlots(events, workStart, workEnd);
    WithBreaksKeeps(AsEvent, Placed(tasks, events, workStart, workEnd));
    PlaceAllKeeps(AsEvent, day, SortTasks(Incomplete(tasks)), workStart, workEnd);
    DaySlotsAreEvents(events, workStart, workEnd);
  }

  /** Event blocks are fixed: the plan holds exactly one block per event starting in the
      window, copied verbatim, whatever the tasks. */
  lemma EventBlocksKept(tasks: seq<Task>, events: seq<CalendarEvent>, workStart: int, workEnd: int)
    ensures multiset(FilterMap(AsEvent, Schedule(tasks, events, workStart, workEnd).timeSlots))
            == multiset(EventBlocks(TodaysEvents(events, workStart, workEnd)))
  {
    var placed := Placed(tasks, events, workStart, workEnd);
    StableSortFilterMap(AsEvent, WithBreaks(placed), StartKey);
    PlacedEvents(tasks, events, workStart, workEnd);
    DaySlotsAreTodaysEvents(events, workStart, workEnd);
  }

  /** A sorted, disjoint list is sorted by start. */
  lemma SortedDisjointByStart(s: seq<TimeSlot>)
    requires SortedDisjoint(s)
    ensures SortedBy(s, StartKey)
  {
    forall i, j | 0 <= i < j < |s|
      ensures KeyLe(StartKey(s[i]), StartKey(s[j]))
    {
      assert s[i].start <= s[i].end <= s[j].start;
    }
  }

  /** Given non-overlapping events and non-negative durations, the placement loop's result
      is well formed. */
  lemma PlacedWellFormed(tasks: seq<Task>, events: seq<CalendarEvent>, workStart: int, workEnd: int)
    requires SortedDisjoint(DaySlots(events, workStart, workEnd))
    requires forall t :: t in tasks && !IsCompleted(t) ==> t.duration >= 0
    ensures WellFormed(Placed(tasks, events, workStart, workEnd), workStart, workEnd)
  {
    var inc := Incomplete(tasks);
    var sorted := SortTasks(inc);
    var day := DaySlots(events, workStart, workEnd);
    assert WellFormed(day, workStart, workEnd) by {
      DaySlotsAreEvents(events, workStart, workEnd);
    }
    forall t | t in sorted
      ensures t.duration >= 0
    {
      assert t in multiset(inc);
      assert t in tasks && !IsCompleted(t);
    }
    PlaceAllWellFormed(day, sorted, workStart, workEnd);
  }

  /** If today's events do not overlap, the plan is sorted by start, non-overlapping and
      inside the day (an event may still end after `workEnd`); the final sort then changes
      nothing, so the break rule of `BreakRule` applies to the plan as returned, and the
      event blocks appear unmoved and in their original order. */
  lemma WellFormedPlan(tasks: seq<Task>, events: seq<CalendarEvent>, workStart: int, workEnd: int)
    requires SortedDisjoint(DaySlots(events, workStart, workEnd))
    requires forall t :: t in tasks && !IsCompleted(t) ==> t.duration >= 0
    ensures WellFormed(Schedule(tasks, events, workStart, workEnd).timeSlots, workStart, workEnd)
    ensures Schedule(tasks, events, workStart, workEnd).timeSlots
            == WithBreaks(Placed(tasks, events, workStart, workEnd))
    ensures FilterMap(AsEvent, Schedule(tasks, events, workStart, workEnd).timeSlots)
            == DaySlots(events, workStart, workEnd)
  {
    var placed := Placed(tasks, events, workStart, workEnd);
    PlacedWellFormed(tasks, events, workStart, workEnd);
    WithBreaksWellFormed(placed, workStart, workEnd);
    SortedDisjointByStart(WithBreaks(placed));
    SortedIsFixed(WithBreaks(placed), StartKey);
    PlacedEvents(tasks, events, workStart, workEnd);
  }

  // ---------------------------------------------------------------------------
  // The total

  lemma {:induction false} TotalMsConcat(a: seq<TimeSlot>, b: seq<TimeSlot>)
    ensures TotalMs(a + b) == TotalMs(a) + TotalMs(b)
  {
    if a == [] {
      assert a + b == b;
    } else {
      assert (a + b)[1..] == a[1..] + b;
      TotalMsConcat(a[1..], b);
    }
  }

  /** A list of blocks none of which ends before it starts has a non-negative total; the
      total is zero exactly when every such block is empty. */
  lemma {:induction false} TotalMsNonNegative(s: seq<TimeSlot>)
    requires forall i :: 0 <= i < |s| ==> s[i].start <= s[i].end
    ensures TotalMs(s) >= 0
    ensures TotalMs(s) == 0 <==> forall i :: 0 <= i < |s| ==> s[i].start == s[i].end
  {
    if s != [] {
      TotalMsNonNegative(s[1..]);
      assert forall i :: 1 <= i < |s| ==> s[i] == s[1..][i - 1];
    }
  }

  lemma TotalMsInsert(x: TimeSlot, t: seq<TimeSlot>, key: TimeSlot -> Key)
    ensures TotalMs(Insert(x, t, key)) == SlotMs(x) + TotalMs(t)
  {
    var p := InsertPos(x, t, key);
    TotalMsConcat(t[..p] + [x], t[p..]);
    TotalMsConcat(t[..p], [x]);
    TotalMsConcat(t[..p], t[p..]);
    assert t[..p] + t[p..] == t;
  }

  /** Reordering by the final sort does not change the sum. */
  lemma {:induction false} TotalMsSort(s: seq<TimeSlot>, key: TimeSlot -> Key)
    ensures TotalMs(StableSort(s, key)) == TotalMs(s)
  {
    if s != [] {
      TotalMsSort(s[1..], key);
      TotalMsInsert(s[0], StableSort(s[1..], key), key);
    }
  }

  /** The time taken by `k` breaks, added up one break at a time. */
  function BreaksMs(k: nat): int
  {
    if k == 0 then 0 else BreaksMs(k - 1) + BreakMs
  }

  /** `k` breaks take `k` times 15 minutes. */
  lemma {:induction false} BreaksMsIsProduct(k: nat)
    ensures BreaksMs(k) == k * BreakMs
  {
    if k > 0 {
      BreaksMsIsProduct(k - 1);
    }
  }

  lemma {:induction false} BreaksMsAdd(a: nat, b: nat)
    ensures BreaksMs(a + b) == BreaksMs(a) + BreaksMs(b)
  {
    if b > 0 {
      BreaksMsAdd(a, b - 1);
    }
  }

  /** What one pass appends adds the block's length, plus 15 minutes if it added a break. */
  lemma PieceTotal(s: seq<TimeSlot>, i: nat)
    requires i < |s|
    ensures 1 <= |Piece(s, i)| <= 2
    ensures TotalMs(Piece(s, i)) == SlotMs(s[i]) + BreaksMs(|Piece(s, i)| - 1)
  {
    if i + 1 < |s| && NeedsBreak(s[i], s[i + 1]) {
      var b := BreakAfter(s[i], s[i + 1]);
      assert [s[i], b][1..] == [b];
      assert TotalMs([b]) == BreakMs;
    } else {
      assert [s[i]][1..] == [];
    }
  }

  lemma TotalMsPrefix(s: seq<TimeSlot>, i: nat)
    requires i < |s|
    ensures TotalMs(s[..i + 1]) == TotalMs(s[..i]) + SlotMs(s[i])
  {
    TotalMsConcat(s[..i], [s[i]]);
    assert s[..i] + [s[i]] == s[..i + 1];
  }

  /** Every break the pass adds contributes exactly 15 minutes. */
  lemma {:induction false} ExpandedTotal(s: seq<TimeSlot>, n: nat)
    requires n <= |s|
    ensures |Expanded(s, n)| >= n
    ensures TotalMs(Expanded(s, n)) == TotalMs(s[..n]) + BreaksMs(|Expanded(s, n)| - n)
  {
    if n > 0 {
      var i := n - 1;
      var e, p := Expanded(s, i), Piece(s, i);
      ExpandedTotal(s, i);
      PieceTotal(s, i);
      TotalMsConcat(e, p);
      TotalMsPrefix(s, i);
      BreaksMsAdd(|e| - i, |p| - 1);
      assert |e + p| - n == (|e| - i) + (|p| - 1);
    }
  }

  /** The break pass adds 15 minutes per break to the total. */
  lemma WithBreaksTotal(s: seq<TimeSlot>)
    ensures |WithBreaks(s)| >= |s|
    ensures TotalMs(WithBreaks(s)) == TotalMs(s) + (|WithBreaks(s)| - |s|) * BreakMs
  {
    ExpandedTotal(s, |s|);
    assert s[..|s|] == s;
    BreaksMsIsProduct(|WithBreaks(s)| - |s|);
  }

  /** Adding breaks and sorting by start keep every block and add 15 minutes per break. */
  lemma SortedTotal(placed: seq<TimeSlot>)
    ensures |StableSort(WithBreaks(placed), StartKey)| == |WithBreaks(placed)| >= |placed|
    ensures SortedBy(StableSort(WithBreaks(placed), StartKey), StartKey)
    ensures TotalMs(StableSort(WithBreaks(placed), StartKey))
            == TotalMs(placed) + (|WithBreaks(placed)| - |placed|) * BreakMs
  {
    TotalMsSort(WithBreaks(placed), StartKey);
    WithBreaksTotal(placed);
    StableSortSorted(WithBreaks(placed), StartKey);
  }

  /** The plan's leftover list is a subsequence of the input task list. */
  lemma UnscheduledInInputOrder(tasks: seq<Task>, events: seq<CalendarEvent>, workStart: int, workEnd: int)
    ensures exists idx :: IsIndexMap(idx, Schedule(tasks, events, workStart, workEnd).unscheduledTasks, tasks)
  {
    var scheduled := ScheduledIds(Placed(tasks, events, workStart, workEnd));
    assert Schedule(tasks, events, workStart, workEnd).unscheduledTasks
           == Unscheduled(Incomplete(tasks), scheduled);
    LeftoverInInputOrder(tasks, scheduled);
  }

  /** The plan is sorted by start, and its blocks, whose summed length `totalDuration`
      rounds to minutes, add up to the placed blocks plus 15 minutes per break the pass
      added; the final sort neither adds nor drops blocks. */
  lemma PlanTotal(tasks: seq<Task>, events: seq<CalendarEvent>, workStart: int, workEnd: int,
                  placed: seq<TimeSlot>)
    requires placed == Placed(tasks, events, workStart, workEnd)
    ensures |Schedule(tasks, events, workStart, workEnd).timeSlots| == |WithBreaks(placed)| >= |placed|
    ensures SortedBy(Schedule(tasks, events, workStart, workEnd).timeSlots, StartKey)
    ensures TotalMs(Schedule(tasks, events, workStart, workEnd).timeSlots)
            == TotalMs(placed) + (|WithBreaks(placed)| - |placed|) * BreakMs
  {
    SortedTotal(placed);
  }
}

=== FILE: sorting.dfy ===
/** The library sort the scheduler calls (`Array.prototype.sort`), which is stable
    since ECMAScript 2019. It is modelled by a stable insertion sort on a
    lexicographic key; a stable sort's output is fixed by its input and key, so the
    choice of algorithm does not show. */
module Sorting {
  import opened Types
  import opened Collections

  /** A sort key, compared lexicographically: `major` first, then `minor`. */
  datatype Key = Key(major: int, minor: int)

  predicate KeyLe(a: Key, b: Key)
  {
    a.major < b.major || (a.major == b.major && a.minor <= b.minor)
  }

  predicate SortedBy<T>(s: seq<T>, key: T -> Key)
  {
    forall i, j :: 0 <= i < j < |s| ==> KeyLe(key(s[i]), key(s[j]))
  }

  /** Where `x` goes in `t`: in front of the first element whose key is not below its own. */
  function InsertPos<T>(x: T, t: seq<T>, key: T -> Key): (p: nat)
    ensures p <= |t|
    ensures forall i :: 0 <= i < p ==> !KeyLe(key(x), key(t[i]))
    ensures p < |t| ==> KeyLe(key(x), key(t[p]))
    decreases |t|
  {
    if t == [] || KeyLe(key(x), key(t[0])) then 0 else 1 + InsertPos(x, t[1..], key)
  }

  function Insert<T>(x: T, t: seq<T>, key: T -> Key): seq<T>
  {
    var p := InsertPos(x, t, key);
    t[..p] + [x] + t[p..]
  }

  /** The sorted permutation of `s`; elements of equal key keep their order in `s`. */
  function StableSort<T>(s: seq<T>, key: T -> Key): (r: seq<T>)
    ensures |r| == |s|
    ensures multiset(r) == multiset(s)
  {
    if s == [] then []
    else
      var t := StableSort(s[1..], key);
      InsertMultiset(s[0], t, key);
      assert s == [s[0]] + s[1..];
      Insert(s[0], t, key)
  }

  lemma InsertMultiset<T>(x: T, t: seq<T>, key: T -> Key)
    ensures |Insert(x, t, key)| == |t| + 1
    ensures multiset(Insert(x, t, key)) == multiset{x} + multiset(t)
  {
    var p := InsertPos(x, t, key);
    assert t[..p] + t[p..] == t;
  }

  lemma InsertSorted<T>(x: T, t: seq<T>, key: T -> Key)
    requires SortedBy(t, key)
    ensures SortedBy(Insert(x, t, key), key)
  {
    var p := InsertPos(x, t, key);
    var r := Insert(x, t, key);
    forall i, j | 0 <= i < j < |r|
      ensures KeyLe(key(r[i]), key(r[j]))
    {
      if i < p && j == p {
        assert r[i] == t[i] && r[j] == x;
      } else if i == p {
        assert r[i] == x && r[j] == t[j - 1];
        assert KeyLe(key(x), key(t[p]));
      } else if i < p && j > p {
        assert r[i] == t[i] && r[j] == t[j - 1];
      } else if j < p {
        assert r[i] == t[i] && r[j] == t[j];
      } else {
        assert r[i] == t[i - 1] && r[j] == t[j - 1];
      }
    }
  }

  lemma {:induction false} StableSortSorted<T>(s: seq<T>, key: T -> Key)
    ensures SortedBy(StableSort(s, key), key)
  {
    if s != [] {
      StableSortSorted(s[1..], key);
      InsertSorted(s[0], StableSort(s[1..], key), key);
    }
  }

  /** The elements of `s` whose key is `k`, in order. */
  function KeyFilter<T>(s: seq<T>, key: T -> Key, k: Key): seq<T>
  {
    if s == [] then []
    else (if key(s[0]) == k then [s[0]] else []) + KeyFilter(s[1..], key, k)
  }

  lemma {:induction false} KeyFilterConcat<T>(a: seq<T>, b: seq<T>, key: T -> Key, k: Key)
    ensures KeyFilter(a + b, key, k) == KeyFilter(a, key, k) + KeyFilter(b, key, k)
  {
    if a == [] {
      assert a + b == b;
    } else {
      assert (a + b)[1..] == a[1..] + b;
      KeyFilterConcat(a[1..], b, key, k);
    }
  }

  lemma {:induction false} KeyFilterAbsent<T>(s: seq<T>, key: T -> Key, k: Key)
    requires forall i :: 0 <= i < |s| ==> key(s[i]) != k
    ensures KeyFilter(s, key, k) == []
  {
    if s != [] {
      KeyFilterAbsent(s[1..], key, k);
    }
  }

  /** Nothing in front of `x`'s insertion point has `x`'s key. */
  lemma KeyFilterBeforeInsertPos<T>(x: T, t: seq<T>, key: T -> Key)
    ensures KeyFilter(t[..InsertPos(x, t, key)], key, key(x)) == []
  {
    var p := InsertPos(x, t, key);
    forall i | 0 <= i < |t[..p]|
      ensures key(t[..p][i]) != key(x)
    {
      assert !KeyLe(key(x), key(t[i]));
    }
    KeyFilterAbsent(t[..p], key, key(x));
  }

  /** Inserting `x` places it first among the elements of its own key. */
  lemma InsertKeyFilter<T>(x: T, t: seq<T>, key: T -> Key, k: Key)
    ensures KeyFilter(Insert(x, t, key), key, k) == KeyFilter([x], key, k) + KeyFilter(t, key, k)
  {
    var p := InsertPos(x, t, key);
    var pre, post := t[..p], t[p..];
    assert Insert(x, t, key) == pre + ([x] + post);
    assert pre + post == t;
    KeyFilterConcat(pre, [x] + post, key, k);
    KeyFilterConcat([x], post, key, k);
    KeyFilterConcat(pre, post, key, k);
    if key(x) == k {
      KeyFilterBeforeInsertPos(x, t, key);
      assert KeyFilter(pre, key, k) == [];
    } else {
      assert [x][1..] == [];
      assert KeyFilter([x], key, k) == [];
    }
  }

  /** Stability: for every key, the elements carrying it appear in the sorted output
      in the same order as in the input. */
  lemma {:induction false} StableSortStable<T>(s: seq<T>, key: T -> Key, k: Key)
    ensures KeyFilter(StableSort(s, key), key, k) == KeyFilter(s, key, k)
  {
    if s != [] {
      StableSortStable(s[1..], key, k);
      InsertKeyFilter(s[0], StableSort(s[1..], key), key, k);
      assert [s[0]] + s[1..] == s;
      KeyFilterConcat([s[0]], s[1..], key, k);
    }
  }

  /** Sorting a sequence that is already sorted changes nothing. */
  lemma {:induction false} SortedIsFixed<T>(s: seq<T>, key: T -> Key)
    requires SortedBy(s, key)
    ensures StableSort(s, key) == s
  {
    if s != [] {
      SortedIsFixed(s[1..], key);
      assert InsertPos(s[0], s[1..], key) == 0;
      assert [s[0]] + s[1..] == s;
    }
  }

  /** What `f` keeps from an insertion: what it keeps from `x` and from `t`, in some order. */
  lemma InsertFilterMap<T, U>(f: T -> Option<U>, x: T, t: seq<T>, key: T -> Key)
    ensures multiset(FilterMap(f, Insert(x, t, key))) == multiset(FilterMap(f, [x])) + multiset(FilterMap(f, t))
  {
    var p := InsertPos(x, t, key);
    var pre, post := t[..p], t[p..];
    assert Insert(x, t, key) == pre + ([x] + post);
    assert pre + post == t;
    FilterMapConcat(f, pre, [x] + post);
    FilterMapConcat(f, [x], post);
    FilterMapConcat(f, pre, post);
  }

  /** What `f` keeps from the sorted sequence is a permutation of what it keeps from the input. */
  lemma {:induction false} StableSortFilterMap<T, U>(f: T -> Option<U>, s: seq<T>, key: T -> Key)
    ensures multiset(FilterMap(f, StableSort(s, key))) == multiset(FilterMap(f, s))
  {
    if s != [] {
      var t := StableSort(s[1..], key);
      assert StableSort(s, key) == Insert(s[0], t, key);
      StableSortFilterMap(f, s[1..], key);
      InsertFilterMap(f, s[0], t, key);
      assert [s[0]] + s[1..] == s;
      FilterMapConcat(f, [s[0]], s[1..]);
      assert multiset(FilterMap(f, s)) == multiset(FilterMap(f, [s[0]])) + multiset(FilterMap(f, s[1..]));
    }
  }
}

=== FILE: types.dfy ===
/** The value types the day scheduler consumes and produces (src/types/index.ts).
    Instants are whole milliseconds, as `Date.getTime()` yields them; task durations
    are whole minutes. */
module Types {

  datatype Option<T> = None | Some(value: T)

  datatype Priority = Low | Medium | High

  /** A to-do item. `priority` and `completed` are optional in the source. */
  datatype Task = Task(
    id: string,
    title: string,
    duration: int,
    priority: Option<Priority>,
    completed: Option<bool>)

  /** A fixed calendar entry; only read, never altered. */
  datatype CalendarEvent = CalendarEvent(
    id: string,
    title: string,
    start: int,
    end: int,
    description: Option<string>)

  /** The `type` field of a time slot: 'task' | 'event' | 'break'. */
  datatype SlotKind = TaskKind | EventKind | BreakKind

  /** One block of the day plan. `taskId` is set on task blocks, `eventId` on event blocks. */
  datatype TimeSlot = TimeSlot(
    id: string,
    start: int,
    end: int,
    kind: SlotKind,
    title: string,
    taskId: Option<string>,
    eventId: Option<string>)

  /** The scheduler's result: ordered blocks, total minutes, tasks left over. */
  datatype SchedulePlan = SchedulePlan(
    timeSlots: seq<TimeSlot>,
    totalDuration: int,
    unscheduledTasks: seq<Task>)
}
